=== FILE: README.md ===
# budgetControlDemo — a Dafny model of the onboarding gate and the data screens

budgetControlDemo is a small bookkeeping app for sole traders. A browser's
`localStorage` holds two items:

- `isOnboarded`, the flag that sends a first-time visitor through a three-step onboarding wizard;
- `userData`, the profile the wizard collects.

This project models the logic behind the app's six core screens and the
storage they share:

- **Storage** (`storage.dfy`): the store as a map from keys to strings, with `getItem`, `setItem`, `removeItem` and `clear`.
- **Routing** (`routing.dfy`): the route table of the root component. It reads the flag once at mount, redirects `/` by that flag, renders six pages inside the navigation shell, and sends every unknown path to `/error`.
- **Profile** (`profile.dfy`): the five-field profile and the text it is stored as. The text has the shape `JSON.stringify` gives the profile. Reading it back is proved to be the inverse of writing it.
- **Text** (`text.dfy`): the JavaScript string work the screens do:
  - the digit filter `replace(/[^0-9]/g, "")`;
  - `String.prototype.trim`, with the white-space and line-terminator code points of ECMAScript.
- **Amount** (`amount.dfy`): amounts as digit strings:
  - `parseInt`;
  - `toLocaleString("ja-JP")`, modelled as comma grouping of the decimal digits;
  - the two `formatCurrency` variants;
  - the entry forms' amount display;
  - the number pad's `handleNumberPad`.
- **Onboarding** (`onboarding.dfy`): the wizard.
  - Its steps: Next (disabled while the trimmed nickname is empty), Back and Skip.
  - Inputs are shown only on their own step, and the goal inputs keep digits only.
  - The commit on step 3 writes the flag and the profile together and goes to the dashboard.
- **Settings** (`settings.dfy`): the settings screen.
  - Loading the stored profile at mount.
  - Per-field editing (currency items keep digits only), Save, and Cancel. Cancel does not undo the edit.
  - Logout, which removes only the flag, and the confirmed reset, which clears everything.
  - The "未設定" / "円" display of each item.
- **ExpenseAdd and IncomeAdd** (`entry_forms.dfy`): the two entry forms.
  - The submit guard and the record that is produced.
  - The expense form's continuous mode, which keeps the category and date and clears the amount and memo.
  - The income form's quick-pick clients.
- **Skills** (`skills.dfy`): the skills list.
  - Add, with validation and the `|| 3` / `|| 0` defaults.
  - Update, by merging a partial skill.
  - Delete, by filtering on the id.
  - `getCategoryInfo`, which falls back to the last category.
  - The `reduce` that groups skills by category, written as a loop whose result is proved against a reference definition.
- **Session** (`session.dfy`): how the screens combine through storage:
  - after the commit, the next start goes to the dashboard and settings shows the committed profile;
  - after a logout, the next start goes to onboarding and the profile is kept;
  - onboarding again replaces the profile.

Timers (`setTimeout(…, 800)`) are collapsed: their effect is applied at once.
The clock (`new Date()`, `Date.now()`) is a parameter.

The route table (`src/App.tsx:53-61`) renders the shell pages whatever the
flag says; only `/` reads it (`Routing.OnlyRootReadsFlag`).

## Model

| member | source | states |
|---|---|---|
| Storage.SetItem | src/pages/Onboarding.tsx:60-61 | after writing, the key reads back the written value and every other key reads as before |
| Storage.RemoveItem | src/pages/Settings.tsx:99 | after removal the key reads as absent and every other key is unchanged |
| Storage.ClearAll | src/pages/Settings.tsx:110 | after clearing, every key reads as absent |
| Routing.Resolve | src/App.tsx:34-67 | `/` redirects to the dashboard or to onboarding according to the flag; `/onboarding` and `/error` render outside the shell; the six shell paths render their pages inside the shell; a path is redirected to `/error` exactly when the table does not name it |
| Routing.GateIsExactMatch | src/App.tsx:26 | the app counts as onboarded exactly when the stored flag is the text "true"; any other text, such as "TRUE", counts as not onboarded |
| Routing.OnlyRootReadsFlag | src/App.tsx:38-61 | every path except `/` resolves the same whatever the flag says, so shell pages are not gated |
| Routing.RedirectsSettle | src/App.tsx:44-66 | every redirect lands on a path that renders a page |
| Routing.ResolutionIsAPartition | src/App.tsx:34-67 | each path falls in exactly one class (shell page, bare page, redirect), and each direction of that classification holds |
| Text.StripNonDigits | src/pages/Onboarding.tsx:104 | the filter's result is all digits, is no longer than its input, and leaves a digit string as it is |
| Text.StripConcat | src/pages/Onboarding.tsx:218 | filtering distributes over concatenation |
| Text.StripIdempotent | src/pages/Settings.tsx:214-217 | filtering an already filtered text changes nothing |
| Text.StripFixedPoint | src/pages/Onboarding.tsx:241 | a text is unchanged by the filter exactly when it is all digits |
| Text.StripKeepsEveryDigit | src/pages/Onboarding.tsx:104-105 | the filter keeps every digit of its input, so its result is empty exactly when the input has no digit |
| Text.StripNonDigitsScan | src/pages/ExpenseAdd.tsx:90-93 | a left-to-right scan computes the same result as the recursive reference filter |
| Text.TrimStart | src/pages/Onboarding.tsx:92 | the result is a suffix, everything dropped is white space, and the result does not begin with white space |
| Text.TrimEnd | src/pages/Onboarding.tsx:92 | the result is a prefix, everything dropped is white space, and the result does not end with white space |
| Text.Trim | src/pages/Onboarding.tsx:92 | the trimmed text is a contiguous part of the input with only white space cut off either side, and it neither starts nor ends with white space |
| Text.TrimEmptyIffBlank | src/pages/Onboarding.tsx:90-93 | a trimmed text is empty exactly when every character of it is white space |
| Amount.ValueZeroIffAllZeros | src/pages/ExpenseAdd.tsx:102 | a digit string has value 0 exactly when all its digits are '0' |
| Amount.LeadingDigits | src/pages/Settings.tsx:123 | `parseInt` reads the longest run of leading digits: a prefix of the text followed by a non-digit or the end, and the whole text when it is all digits |
| Amount.ParsesToZeroIffValueZero | src/pages/IncomeAdd.tsx:44 | for a non-empty digit amount, the guard `parseInt(amount) === 0` holds exactly when its value is 0 |
| Amount.StripLeadingZeros | src/pages/ExpenseAdd.tsx:97 | dropping leading zeros keeps the value, leaves no leading '0', and leaves nothing only for an all-zero input |
| Amount.CanonicalDigits | src/pages/ExpenseAdd.tsx:97-98 | the digits a number prints with have the same value and begin with '0' only when they are "0" |
| Amount.GroupThousands | src/pages/ExpenseAdd.tsx:98 | grouping inserts one comma per three digits after the first group, and filtering the result gives back the digits. The commas sit exactly at the positions a multiple of four characters from the end, and every other character is a digit |
| Amount.GroupedIsGroupThousands | src/pages/ExpenseAdd.tsx:98 | a text with commas every three digits from the right and a digit first is exactly the grouping of its own digits, so the grouping and the digits determine the formatted text |
| Amount.LocaleInteger | src/pages/IncomeAdd.tsx:34-35 | the formatted number is not empty. Its digits are the canonical digits of the input, with the same value. It starts with a digit and has commas every three digits from the right, which together fix the text |
| Amount.FormatTypedAmount | src/pages/Onboarding.tsx:102-108 | the goal input shows nothing exactly when the typed text has no digit. Otherwise it shows the canonical digits of the typed digits, starting with a digit and with commas every three digits from the right |
| Amount.FormatStoredAmount | src/pages/Settings.tsx:120-125 | the display is empty exactly for the empty value, and is "NaN" for a value that does not start with a digit. Otherwise it shows the canonical digits of the leading digits `parseInt` reads, starting with a digit and with commas every three digits from the right |
| Amount.ShownAmount | src/pages/ExpenseAdd.tsx:164 | the amount display is never empty and shows "0" when there is no amount. Otherwise it is the formatted amount: for a digit amount, its canonical digits, grouped |
| Amount.RedisplayIsStable | src/pages/Onboarding.tsx:214-219 | feeding a goal input's display back through its change handler gives the canonical digits, and re-displaying them gives the same text |
| Amount.PressKey | src/pages/ExpenseAdd.tsx:130-138 | "clear" empties the amount; "delete" removes exactly the last character (nothing on an empty amount); any other key is appended |
| Amount.PadKeepsDigits | src/pages/ExpenseAdd.tsx:170-201 | pressing any key the pad offers keeps a digit amount all digits |
| Amount.AppendThenDelete | src/pages/IncomeAdd.tsx:67-78 | a one-character key followed by "delete" restores the amount |
| Amount.DoubleZeroThenDelete | src/pages/IncomeAdd.tsx:122-124 | "00" followed by "delete" leaves one extra '0': the pad's delete removes a character, not a key press |
| Profile.ReadEscapedRoundTrip | src/pages/Settings.tsx:62 | reading back an escaped value up to its closing quote gives the value and the rest of the text |
| Profile.ReadQuotedRoundTrip | src/pages/Settings.tsx:62 | reading back a quoted value gives the value and the rest of the text |
| Profile.DecodeMembersRoundTrip | src/pages/Settings.tsx:62-72 | reading back a written member list gives the values in order and the rest of the text |
| Profile.DecodeEncode | src/pages/Onboarding.tsx:61 | parsing the stored profile text gives back exactly the profile that was stored |
| Profile.ReadEscapedSound | src/pages/Settings.tsx:62 | whatever a successful read of an escaped value returns, escaping the value and closing the quote rebuilds the text it read |
| Profile.DecodeMembersSound | src/pages/Settings.tsx:62 | a successful read of a member list returns one value per member name, and writing those values back rebuilds the text it read |
| Profile.DecodeOnlyEncodings | src/pages/Settings.tsx:62 | the only texts read as a profile are those the write produces: writing the profile read gives back the text |
| Profile.EncodeInjective | src/pages/Settings.tsx:72 | two different profiles are never stored as the same text |
| Onboarding.Initial | src/pages/Onboarding.tsx:27-36 | the wizard starts on step 1 with all five draft fields empty, within its invariant |
| Onboarding.Commit | src/pages/Onboarding.tsx:59-61 | after the commit the app is onboarded, the stored profile parses to the draft, and every other key is unchanged |
| Onboarding.HandleNext | src/pages/Onboarding.tsx:54-64 | the draft is kept. Below step 3, Next advances the step by one, leaves storage as it was and does not navigate. On step 3 the app is onboarded, the stored profile parses to exactly the draft, every other key reads as before, and it navigates to the dashboard |
| Onboarding.HandleBack | src/pages/Onboarding.tsx:69-73 | the draft is kept; above step 1, Back goes back one step; on step 1 it does nothing |
| Onboarding.HandleSkip | src/pages/Onboarding.tsx:79-83 | the draft is kept; on step 2, Skip goes to step 3; on any other step it does nothing |
| Onboarding.Apply | src/pages/Onboarding.tsx:54-108 | storage changes and navigation happen only on an enabled Next at step 3; field edits never change the step; a disabled Next changes nothing |
| Onboarding.CanProceedIffNicknameNotBlank | src/pages/Onboarding.tsx:89-95 | on step 1 Next is enabled exactly when the nickname has a character that is not white space; on the other steps it is always enabled |
| Onboarding.ApplyKeepsInv | src/pages/Onboarding.tsx:54-95 | every action keeps the step within 1 to 3, the goals digit-only, the business type one of the options, and past step 1 a non-blank nickname |
| Onboarding.BackAndNextAreInverse | src/pages/Onboarding.tsx:54-73 | Back undoes Next below step 3, and Next undoes Back above step 1 |
| Onboarding.SkipOnlyFromGoals | src/pages/Onboarding.tsx:79-83 | on step 2 Skip lands on step 3, as Next does; on any other step it does nothing |
| Onboarding.OnlyCommitWrites | src/pages/Onboarding.tsx:54-64 | only Next on step 3 writes storage or navigates, and it writes exactly the commit |
| Onboarding.RunCommitsOnlyValidProfiles | src/pages/Onboarding.tsx:54-95 | after any sequence of actions, storage is either untouched or holds one commit of a profile with a non-blank nickname and digit-only goals |
| Onboarding.BlankNicknameBlocksNext | src/pages/Onboarding.tsx:316 | with a blank nickname on step 1, Next changes nothing |
| Onboarding.NicknameSkipCommit | src/pages/Onboarding.tsx:54-83 | typing a non-blank nickname, then Next, Skip and Next, commits the profile with that nickname and no goals, and goes to the dashboard |
| Onboarding.TanakaScenario | src/pages/Onboarding.tsx:148-152 | the same walk-through with the nickname "田中" |
| Onboarding.FormatWithoutDigitsIsEmpty | src/pages/Onboarding.tsx:105 | a goal text with no digit displays as empty |
| Settings.WithField | src/pages/Settings.tsx:211-233 | editing one field sets that field and leaves the other four as they were |
| Settings.Mount | src/pages/Settings.tsx:58-64 | with no stored profile, or an empty one, the screen shows the blank profile; with a stored profile it shows exactly that profile; a mounted screen is never editing and never shows the reset dialog |
| Settings.DisplayValue | src/pages/Settings.tsx:120-171 | an empty item shows "未設定"; a text item shows its value; a non-empty goal item shows the stored amount as formatted, followed by "円" |
| Settings.GoalShowsStoredValue | src/pages/Settings.tsx:120-171 | for a goal stored as digits, the text before the "円" is the canonical digits of the stored value (so no leading zeros), grouped with commas every three digits from the right |
| Settings.Apply | src/pages/Settings.tsx:70-113 | only Logout and the confirmed reset navigate, both to onboarding. Only Save with an editor open, Logout and the confirmed reset change storage. Save or Cancel with no editor open changes nothing |
| Settings.OnlySaveLogoutResetWrite | src/pages/Settings.tsx:70-113 | only Save, Logout and the confirmed reset touch storage or navigate; Save writes only the profile, and Logout removes only the flag |
| Settings.SaveThenMount | src/pages/Settings.tsx:70-76 | from an open editor, Save closes it, and the next mount shows the saved profile |
| Settings.SaveNeedsEditor | src/pages/Settings.tsx:200-250 | with no editor open there is no Save button, and a Save then changes nothing |
| Settings.CancelDoesNotWrite | src/pages/Settings.tsx:243-246 | from an open editor, Cancel closes it, leaves storage as it was, and keeps the shown profile |
| Settings.LogoutClearsGateKeepsProfile | src/pages/Settings.tsx:97-102 | after Logout the stored flag is gone, so a restart at `/` leads to onboarding; the stored profile is kept, and the screen navigates to onboarding |
| Settings.ResetForgetsEverything | src/pages/Settings.tsx:108-113 | with the dialog open, after the confirmed reset storage is empty, the app is not onboarded, and the next mount shows the blank profile |
| Settings.ResetNeedsConfirmation | src/pages/Settings.tsx:89-113 | the reset takes two steps: confirming with no dialog open does nothing, and opening then dismissing the dialog leaves storage as it was, with a later confirm doing nothing |
| Settings.CurrencyEditKeepsDigits | src/pages/Settings.tsx:205-219 | an edit in a goal item's editor stores exactly the digits of what was typed |
| Settings.EmptyItemsShowUnset | src/pages/Settings.tsx:121 | an empty goal formats to the empty text, and every empty item shows "未設定" |
| Settings.CancelledEditIsSavedLater | src/pages/Settings.tsx:224-246 | an edit that was cancelled is still stored by a later Save from another item's editor |
| ExpenseAdd.Initial | src/pages/ExpenseAdd.tsx:26-31 | the form opens with no amount and no category, dated today |
| ExpenseAdd.HandleAmountChange | src/pages/ExpenseAdd.tsx:90-93 | the amount handler no input is bound to: it changes only the amount, leaves it all digits, and keeps a typed digit string as it is |
| ExpenseAdd.Apply | src/pages/ExpenseAdd.tsx:130-220 | only Submit records or navigates. A pad key updates the amount as the pad does, and a key the pad does not offer changes nothing. A listed category button selects that category, and any other id changes nothing |
| ExpenseAdd.HandleSubmit | src/pages/ExpenseAdd.tsx:101-128 | a record is produced exactly when the guard holds, and otherwise nothing changes. The record holds the parsed amount, the date, the category and the memo as entered. In continuous mode the form stays, with amount and memo cleared and category and date kept; otherwise it navigates to the dashboard |
| ExpenseAdd.ApplyKeepsInv | src/pages/ExpenseAdd.tsx:130-138 | every action keeps the amount all digits and the category one of the listed ids |
| ExpenseAdd.SubmitGuardMeaning | src/pages/ExpenseAdd.tsx:283 | on a reachable form, submission is enabled exactly when there is an amount whose value is not 0 and a category |
| ExpenseAdd.SubmitRecordsPositive | src/pages/ExpenseAdd.tsx:101-112 | on a reachable form, a recorded expense has a positive amount |
| ExpenseAdd.AmountChangeIdempotent | src/pages/ExpenseAdd.tsx:90-93 | the amount change handler leaves a digit string, and applying it again to the result changes nothing |
| IncomeAdd.Initial | src/pages/IncomeAdd.tsx:15-18 | the form opens with no amount and no client, dated today, within its invariant |
| IncomeAdd.Apply | src/pages/IncomeAdd.tsx:67-183 | only Submit records or navigates. A pad key updates the amount as the pad does, and a key the pad does not offer changes nothing. A quick pick sets the client only while none is entered and only to a listed name |
| IncomeAdd.HandleSubmit | src/pages/IncomeAdd.tsx:42-61 | a record is produced exactly when the guard holds, and otherwise nothing changes. The record holds the parsed amount, and the date, memo and client as entered. A submit always navigates to the dashboard |
| IncomeAdd.ApplyKeepsInv | src/pages/IncomeAdd.tsx:67-78 | every action keeps the amount all digits |
| IncomeAdd.SubmitRecordsPositive | src/pages/IncomeAdd.tsx:42-51 | on a reachable form, a recorded income has a positive amount |
| IncomeAdd.GuardIgnoresClient | src/pages/IncomeAdd.tsx:44 | the guard does not depend on the client, and holds exactly when there is an amount whose value is not 0 |
| IncomeAdd.PadTypeThenDelete | src/pages/IncomeAdd.tsx:122-128 | on the form, a one-character pad key followed by delete restores the form, and the key keeps the amount all digits |
| Skills.AddSkill | src/pages/Skills.tsx:148-163 | without a name or category the list is unchanged. Otherwise exactly one skill is appended after the unchanged list. It carries exactly the draft's fields and the given id, except that a level of 0 becomes 3 |
| Skills.HandleAddSkill | src/pages/Skills.tsx:148-172 | an incomplete draft changes nothing. A complete one appends to the list what `Skills.AddSkill` appends (every draft field, with the `\|\| 3` level default), resets the draft and closes the form. The editor state is never touched |
| Skills.StartEditing | src/pages/Skills.tsx:253-256 | the editor opens on the skill's id with a copy of the skill; the list, the draft and the add form are untouched |
| Skills.SelectDraftCategory | src/pages/Skills.tsx:336-343 | a category button sets the draft's category to a listed id; an id that is not listed changes nothing |
| Skills.HandleDeleteSkill | src/pages/Skills.tsx:192-196 | the list becomes what `Skills.DeleteSkill` gives: survivors keep their order and nothing is added. It shrinks by the number of skills with the id, none with the id remain, every other skill survives, and the rest of the screen is untouched |
| Skills.Merge | src/pages/Skills.tsx:182 | the spread `{ ...skill, ...updates }`: each field present in the patch takes the patch's value, the id included, and each absent field keeps the skill's value; an empty patch changes nothing |
| Skills.MergeIdempotent | src/pages/Skills.tsx:182 | merging the same patch twice is the same as merging it once |
| Skills.WholeSkill | src/pages/Skills.tsx:182 | merging the whole edited skill over any skill gives the edited skill |
| Skills.UpdateSkill | src/pages/Skills.tsx:179-186 | the list keeps its length; skills with the id are merged with the patch, and all others stay in place unchanged |
| Skills.DeleteSkill | src/pages/Skills.tsx:192-196 | the result loses exactly the skills with the id, keeps every other skill, and adds nothing |
| Skills.DeleteConcat | src/pages/Skills.tsx:194 | deleting works piecewise on a split list, so the survivors keep their order |
| Skills.DeleteAbsent | src/pages/Skills.tsx:194 | deleting an id no skill has leaves the list as it is |
| Skills.DeleteIdempotent | src/pages/Skills.tsx:192-196 | deleting twice is the same as deleting once |
| Skills.DeleteAfterUpdate | src/pages/Skills.tsx:179-196 | an update that keeps the id cannot be seen once that id is deleted |
| Skills.UpdateWholeIdempotent | src/pages/Skills.tsx:179-186 | saving the same edited skill twice leaves the same list as saving it once |
| Skills.HandleSaveEdit | src/pages/Skills.tsx:258-264 | with a copy open, every skill with the id becomes the copy, the rest are unchanged, and the editor closes; with none open, nothing changes. The draft and the add form are never touched |
| Skills.SaveUnchangedEdit | src/pages/Skills.tsx:253-264 | opening the editor on a skill and saving without changes leaves the list as it was, when that id is unique |
| Skills.AddThenDelete | src/pages/Skills.tsx:148-196 | adding a skill under a fresh id and then deleting that id restores the list |
| Skills.HandlersKeepScreenInv | src/pages/Skills.tsx:148-264 | starting from the empty list, every handler keeps the draft's category empty or listed, every skill's category listed, and the editor copy's category listed |
| Skills.ListedSkillsHaveOwnCategory | src/pages/Skills.tsx:203-208 | on a reachable screen `getCategoryInfo` of a skill's category is that category itself, so the fallback is never taken |
| Skills.FindCategory | src/pages/Skills.tsx:205 | `find` returns the first category with the id, or nothing when none has it |
| Skills.CategoryInfo | src/pages/Skills.tsx:203-208 | the result is a listed category: the one with the id when one exists, otherwise "other" (その他) |
| Skills.InCategory | src/pages/Skills.tsx:245-251 | a category's reference group holds only skills of that category, and every such skill |
| Skills.GroupByCategory | src/pages/Skills.tsx:245-251 | the grouping has one group for each category present, and each group equals that category's skills in list order |
| Skills.NoneOutsideCategories | src/pages/Skills.tsx:246-248 | a category that no skill has gets an empty reference group |
| Skills.ExactlyOneGroup | src/pages/Skills.tsx:245-251 | every skill is in the group of its own category and in no other group |
| Session.CommitOpensDashboard | src/App.tsx:26-50 | after the commit, a restart leads from `/` to the dashboard, and the settings screen shows exactly the committed profile |
| Session.LogoutAfterCommit | src/pages/Settings.tsx:58-102 | logging out after onboarding sends a restart to onboarding, while settings still finds the committed profile |
| Session.RecommitReplacesProfile | src/pages/Onboarding.tsx:59-61 | onboarding again after a logout sets the flag and replaces the stored profile with the new one |

## Left out

- JSX markup, styling, icons and animations, and the pages outside the core (`Dashboard`, `Report`, `Layout`, `ErrorPage`, `main`). `ScrollToTop` is not part of this model.
- `JSON.stringify` / `JSON.parse` in general. The stored profile uses a stand-in that has the same shape and escapes `"` and `\` only; control characters and `\u` escapes are not modelled. `Profile.Decode` accepts exactly the texts `Profile.Encode` produces. Valid JSON that `Encode` would not produce (hand-edited storage) is also read as unparseable, where the source shows it; only invalid JSON throws in the source.
- Persistence of the skills list under `userSkills` (`saveSkills` and the load at mount). The list operations are modelled on the in-memory array only, because its JSON encoding would add nothing beyond the profile's.
- `parseInt`: leading white space, a sign and the `0x` prefix are not modelled; the model reads the leading ASCII digits.
- ExpenseAdd.HandleSubmit, IncomeAdd.HandleSubmit: for an amount that does not start with a digit, `parseInt` gives `NaN` and the source's guard lets it through; the model records the value 0 instead. No such amount is reachable from the pad (`ExpenseAdd.ApplyKeepsInv`, `IncomeAdd.ApplyKeepsInv`), so the records of reachable forms are exact.
- `toLocaleString("ja-JP")` is modelled as exact comma grouping, and `parseInt` as the exact value of the digits. Above 2^53 a JavaScript number loses precision, both in the display and in the amount `parseInt(amount)` recorded by `ExpenseAdd.HandleSubmit` and `IncomeAdd.HandleSubmit`. The model does not reproduce that.
- Skills.AddSkill: a `NaN` level or years count (also falsy in JavaScript) is not modelled, because the model's numbers are integers.
- The skill id from `Date.now()` and the date from `new Date()` are parameters. The 800 ms timers are collapsed, with their effect applied at once. Clicking again before a timer fires is therefore not modelled.
- Output only: `console.log` of the submitted entries (modelled as the returned record), `alert` for CSV export, `window.open` for help and terms, and the notification toggle, which is never stored.
- The router's basename `/budgetControlDemo`, case-insensitive matching, and trailing slashes. `Routing.Resolve` takes paths exactly as written in the table. The back arrow (`navigate(-1)`) is browser history and is not modelled.
- The flag is read once when the root component mounts. `Routing.Resolve` takes that snapshot as a parameter; a commit changes what the next start sees (`Session.CommitOpensDashboard`), not the running table.
- Settings.DisplayValue: does not state "shows '未設定' only when empty" as an if-and-only-if, because a stored value can itself be the text "未設定".
- Skills.GroupByCategory: the order of the groups (`Object.entries`, insertion order) is not modelled; the result is a map.
- The star rating (`renderStars`) and the inputs for a skill's name, level, years and description are edits of the draft or of the copy, and they are not modelled separately. Only the category buttons are (`Skills.SelectDraftCategory`).
- Skills.GroupByCategory: the source groups into a plain object, so a category id such as "constructor" would meet an inherited property. The model's map has no such keys. Category ids come only from the listed buttons (`Skills.HandlersKeepScreenInv`), and none of them is a prototype property name.
- Skills.HandlersKeepScreenInv: skills loaded from `userSkills` can carry any category, because the stored list is not modelled (see above). The invariant covers lists built on the screen only.
- Settings.Apply: `StartEdit` does not test an item's `editable` flag, because every item of the list sets it (`src/pages/Settings.tsx:137-173`).

=== FILE: amount.dfy ===
/**
  Yen amounts as the forms hold them: strings of decimal digits. This module
  gives their integer value, the `parseInt(...) === 0` submit guard, the
  `toLocaleString("ja-JP")` display with thousands separators, and the
  number pad shared by the income and expense forms.
 */
module Amount {
  import opened Text

  function DigitValue(c: char): nat
    requires IsDigit(c)
  {
    c as int - '0' as int
  }

  function Pow10(n: nat): nat {
    if n == 0 then 1 else 10 * Pow10(n - 1)
  }

  /** The integer a digit string denotes (most significant digit first). */
  function Value(d: string): nat
    requires IsDigitString(d)
  {
    if d == [] then 0 else DigitValue(d[0]) * Pow10(|d| - 1) + Value(d[1..])
  }

  predicate AllZeros(d: string) {
    forall i :: 0 <= i < |d| ==> d[i] == '0'
  }

  /** A digit string denotes zero exactly when every digit is '0'. */
  lemma {:induction false} ValueZeroIffAllZeros(d: string)
    requires IsDigitString(d)
    ensures Value(d) == 0 <==> AllZeros(d)
  {
    if d != [] {
      ValueZeroIffAllZeros(d[1..]);
      assert Pow10(|d| - 1) > 0 by { Pow10Positive(|d| - 1); }
      if AllZeros(d) {
        assert AllZeros(d[1..]) by {
          forall i | 0 <= i < |d[1..]| ensures d[1..][i] == '0' {
            assert d[1..][i] == d[i + 1];
          }
        }
      }
      if Value(d) == 0 {
        forall i | 0 <= i < |d| ensures d[i] == '0' {
          if i > 0 {
            assert d[i] == d[1..][i - 1];
          }
        }
      }
    }
  }

  lemma {:induction false} Pow10Positive(n: nat)
    ensures Pow10(n) > 0
  {
    if n > 0 {
      Pow10Positive(n - 1);
    }
  }

  /** The longest prefix of ASCII digits: the part of a string `parseInt` reads. */
  function LeadingDigits(s: string): (r: string)
    ensures IsDigitString(r)
    ensures |r| <= |s| && r == s[..|r|]
    ensures |r| < |s| ==> !IsDigit(s[|r|])
    ensures IsDigitString(s) ==> r == s
  {
    if s != [] && IsDigit(s[0]) then [s[0]] + LeadingDigits(s[1..]) else []
  }

  /** `parseInt(s) === 0`: the leading digits exist and are all zeros (otherwise
      the parse is either non-zero or NaN, and NaN is not 0). */
  predicate ParsesToZero(s: string) {
    var d := LeadingDigits(s);
    d != [] && AllZeros(d)
  }

  /** On a non-empty digit string the guard `parseInt(s) === 0` is exactly "denotes zero". */
  lemma ParsesToZeroIffValueZero(d: string)
    requires IsDigitString(d) && d != []
    ensures ParsesToZero(d) <==> Value(d) == 0
  {
    assert LeadingDigits(d) == d;
    ValueZeroIffAllZeros(d);
  }

  /** Drops the leading '0' characters. */
  function StripLeadingZeros(d: string): (r: string)
    requires IsDigitString(d)
    ensures IsDigitString(r)
    ensures Value(r) == Value(d)
    ensures r == [] || r[0] != '0'
    ensures r == [] ==> AllZeros(d)
  {
    if d != [] && d[0] == '0' then StripLeadingZeros(d[1..]) else d
  }

  /** The decimal digits of `parseInt(d)` for a non-empty digit string `d`:
      same value, no leading zero unless the value is zero itself. */
  function CanonicalDigits(d: string): (r: string)
    requires IsDigitString(d) && d != []
    ensures IsDigitString(r) && r != []
    ensures Value(r) == Value(d)
    ensures r[0] == '0' ==> r == "0"
  {
    var z := StripLeadingZeros(d);
    if z == [] then ValueZeroIffAllZeros(d); "0" else z
  }

  /** Inserts a ',' before every group of three digits, counted from the right. */
  function GroupThousands(c: string): (r: string)
    requires IsDigitString(c)
    ensures StripNonDigits(r) == c
    ensures c != [] ==> |r| == |c| + (|c| - 1) / 3
    ensures Grouped(r)
  {
    if |c| <= 3 then c
    else
      var head := c[..|c| - 3];
      var tail := c[|c| - 3..];
      var g := GroupThousands(head);
      var r := g + "," + tail;
      StripConcat(g + ",", tail);
      StripConcat(g, ",");
      assert head + tail == c;
      GroupedExtend(g, tail);
      r
  }

  /** Every fourth character from the right is ',' and every other one a digit;
      the text does not start with a ','. */
  predicate Grouped(r: string) {
    && (forall i :: 0 <= i < |r| ==> if (|r| - i) % 4 == 0 then r[i] == ',' else IsDigit(r[i]))
    && (r != [] ==> IsDigit(r[0]))
  }

  lemma GroupedExtend(g: string, tail: string)
    requires Grouped(g) && g != [] && IsDigitString(tail) && |tail| == 3
    ensures Grouped(g + "," + tail)
  {
    var r := g + "," + tail;
    assert r[0] == g[0];
    forall i | 0 <= i < |r|
      ensures if (|r| - i) % 4 == 0 then r[i] == ',' else IsDigit(r[i])
    {
      if i < |g| {
        assert r[i] == g[i];
        assert |r| - i == (|g| - i) + 4;
      } else if i > |g| {
        assert r[i] == tail[i - |g| - 1];
      }
    }
  }

  /** A grouped text is determined by its digits: it is the grouping of them.
      So `Grouped(r)` together with the digits of `r` pins `r` down completely. */
  lemma {:induction false} GroupedIsGroupThousands(r: string)
    requires Grouped(r)
    ensures IsDigitString(StripNonDigits(r))
    ensures r == GroupThousands(StripNonDigits(r))
    decreases |r|
  {
    if |r| <= 3 {
      GroupedShortIsDigits(r);
    } else {
      var p := r[..|r| - 4];
      var t := r[|r| - 3..];
      GroupedSplit(r);
      GroupedIsGroupThousands(p);
      SplitDigits(p, t);
      GroupThousandsStep(StripNonDigits(p), t);
    }
  }

  /** A grouped text of at most three characters has no comma. */
  lemma GroupedShortIsDigits(r: string)
    requires Grouped(r) && |r| <= 3
    ensures IsDigitString(r)
  {
    forall i | 0 <= i < |r|
      ensures IsDigit(r[i])
    {
      assert (|r| - i) % 4 != 0;
    }
  }

  /** A longer grouped text is a shorter non-empty grouped text, a comma, and three digits. */
  lemma GroupedSplit(r: string)
    requires Grouped(r) && |r| > 3
    ensures |r| > 4
    ensures r == r[..|r| - 4] + "," + r[|r| - 3..]
    ensures Grouped(r[..|r| - 4]) && IsDigitString(r[|r| - 3..])
  {
    assert (|r| - (|r| - 4)) % 4 == 0;
    var p := r[..|r| - 4];
    var t := r[|r| - 3..];
    assert r == p + "," + t;
    forall i | 0 <= i < 3
      ensures IsDigit(t[i])
    {
      assert t[i] == r[|r| - 3 + i];
      assert (|r| - (|r| - 3 + i)) % 4 != 0;
    }
    forall i | 0 <= i < |p|
      ensures if (|p| - i) % 4 == 0 then p[i] == ',' else IsDigit(p[i])
    {
      assert p[i] == r[i];
      assert |r| - i == (|p| - i) + 4;
    }
  }

  /** The digits of `p + "," + t` are those of `p` followed by `t`, and there are some in `p`. */
  lemma {:induction false} SplitDigits(p: string, t: string)
    requires p != [] && IsDigit(p[0]) && IsDigitString(t)
    ensures StripNonDigits(p) != []
    ensures StripNonDigits(p + "," + t) == StripNonDigits(p) + t
  {
    assert StripNonDigits(p) == [p[0]] + StripNonDigits(p[1..]);
    StripConcat(p + ",", t);
    StripConcat(p, ",");
    assert StripNonDigits(",") == [];
  }

  /** One step of the grouping: the last three digits form their own group. */
  lemma {:induction false} GroupThousandsStep(h: string, t: string)
    requires IsDigitString(h) && h != [] && IsDigitString(t) && |t| == 3
    ensures GroupThousands(h + t) == GroupThousands(h) + "," + t
  {
    var c := h + t;
    assert c[..|c| - 3] == h;
    assert c[|c| - 3..] == t;
  }

  /** `parseInt(d).toLocaleString("ja-JP")` for a non-empty digit string `d`. */
  function LocaleInteger(d: string): (r: string)
    requires IsDigitString(d) && d != []
    ensures r != []
    ensures StripNonDigits(r) == CanonicalDigits(d)
    ensures Value(StripNonDigits(r)) == Value(d)
    ensures Grouped(r)
  {
    GroupThousands(CanonicalDigits(d))
  }

  /** The onboarding `formatCurrency`: keep the digits, show nothing when there are none. */
  function FormatTypedAmount(value: string): (r: string)
    ensures r == [] <==> StripNonDigits(value) == []
    ensures r != [] ==> StripNonDigits(r) == CanonicalDigits(StripNonDigits(value)) && Grouped(r)
  {
    var num := StripNonDigits(value);
    if num == [] then [] else LocaleInteger(num)
  }

  /** The `formatDisplayAmount` of the forms and the settings `formatCurrency`:
      empty for the empty string, otherwise `parseInt(value)` grouped, or
      "NaN" when `value` does not start with a digit. */
  function FormatStoredAmount(value: string): (r: string)
    ensures r == [] <==> value == []
    ensures value != [] && !IsDigit(value[0]) ==> r == "NaN"
    ensures LeadingDigits(value) != [] ==> StripNonDigits(r) == CanonicalDigits(LeadingDigits(value)) && Grouped(r)
    ensures IsDigitString(value) && value != [] ==> Value(StripNonDigits(r)) == Value(value) && Grouped(r)
  {
    if value == [] then []
    else
      var d := LeadingDigits(value);
      if d == [] then "NaN" else LocaleInteger(d)
  }

  /** The amount shown above the number pad: the formatted amount, or "0"
      while there is none. For a digit amount it always shows its value. */
  function ShownAmount(amount: string): (r: string)
    ensures r != []
    ensures amount == [] ==> r == "0"
    ensures amount != [] ==> r == FormatStoredAmount(amount)
    ensures IsDigitString(amount) && amount != [] ==> StripNonDigits(r) == CanonicalDigits(amount)
    ensures IsDigitString(amount) ==> Value(StripNonDigits(r)) == Value(amount) && Grouped(r)
  {
    var f := FormatStoredAmount(amount);
    if f == [] then
      assert StripNonDigits("0") == "0";
      assert Grouped("0");
      "0"
    else f
  }

  /** Editing the displayed text of a currency input and stripping it again
      yields the canonical digits: a controlled input is stable under re-entry,
      except that leading zeros disappear. */
  lemma RedisplayIsStable(value: string)
    requires StripNonDigits(value) != []
    ensures StripNonDigits(FormatTypedAmount(value)) == CanonicalDigits(StripNonDigits(value))
    ensures FormatTypedAmount(StripNonDigits(FormatTypedAmount(value))) == FormatTypedAmount(value)
  {
    var d := StripNonDigits(value);
    var c := CanonicalDigits(d);
    assert StripNonDigits(c) == c;
    assert CanonicalDigits(c) == c by {
      if c[0] != '0' {
        assert StripLeadingZeros(c) == c;
      } else {
        assert c == "0";
        assert StripLeadingZeros(c) == StripLeadingZeros(c[1..]);
      }
    }
  }

  // ---- the number pad of the income and expense forms ----

  const ClearKey := "clear"
  const DeleteKey := "delete"

  /** The keys the pads offer: the digit grid, "00", delete, and the clear button. */
  const PadKeys: set<string> := {"1", "2", "3", "4", "5", "6", "7", "8", "9", "00", "0", DeleteKey, ClearKey}

  /** `handleNumberPad`: clear empties the amount, delete drops its last
      character (`slice(0, -1)`), any other key is appended. */
  function PressKey(amount: string, key: string): (r: string)
    ensures key == ClearKey ==> r == []
    ensures key == DeleteKey && amount == [] ==> r == []
    ensures key == DeleteKey && amount != [] ==> r + [amount[|amount| - 1]] == amount
    ensures key != ClearKey && key != DeleteKey ==> |r| == |amount| + |key| && r[..|amount|] == amount && r[|amount|..] == key
  {
    if key == ClearKey then []
    else if key == DeleteKey then (if amount == [] then [] else amount[..|amount| - 1])
    else amount + key
  }

  /** Every key on the pad keeps an amount made of digits only. */
  lemma PadKeepsDigits(amount: string, key: string)
    requires IsDigitString(amount) && key in PadKeys
    ensures IsDigitString(PressKey(amount, key))
  {
    var r := PressKey(amount, key);
    if key != ClearKey && key != DeleteKey {
      assert IsDigitString(key);
      assert forall i :: |amount| <= i < |r| ==> r[i] == key[i - |amount|];
    }
  }

  /** Pressing a one-character key and then delete restores the amount. */
  lemma AppendThenDelete(amount: string, key: string)
    requires |key| == 1
    ensures PressKey(PressKey(amount, key), DeleteKey) == amount
  {
    assert (amount + key)[..|amount|] == amount;
  }

  /** The two-character "00" key is not undone by one delete: one '0' stays. */
  lemma DoubleZeroThenDelete(amount: string)
    ensures PressKey(PressKey(amount, "00"), DeleteKey) == amount + "0"
  {
    assert (amount + "00")[..|amount| + 1] == amount + "0";
  }
}

=== FILE: entry_forms.dfy ===
/**
  The expense entry form: an amount typed on the number pad, a category, a
  date and a memo. Submitting records the expense and either returns to the
  dashboard or, in continuous mode, clears the amount and memo for the next
  entry. Today's date comes from the clock and is a parameter here.
 */
module ExpenseAdd {
  import opened Wrappers
  import opened Text
  import opened Amount
  import Routing

  /** The ids of the category buttons. */
  const CategoryIds: seq<string> := [
    "transport", "meeting", "purchase", "advertising", "entertainment",
    "meal", "rent", "office", "other"
  ]

  datatype Form = Form(amount: string, date: string, memo: string, category: string, continuous: bool, showSuccess: bool)

  /** The form as opened on day `today`. */
  function Initial(today: string): (f: Form)
    ensures Inv(f) && f.amount == [] && f.category == [] && f.date == today
  {
    Form("", today, "", "", false, false)
  }

  /** The states the form can reach: a digit-only amount and no category or a listed one. */
  predicate Inv(f: Form) {
    IsDigitString(f.amount) && (f.category == [] || f.category in CategoryIds)
  }

  /** The expense a submit records: `parseInt(amount)` and the other fields as entered. */
  datatype Expense = Expense(amount: nat, date: string, category: string, memo: string)

  /** The submit guard (and the button's enabled state): an amount, not zero, and a category. */
  predicate CanSubmit(f: Form) {
    f.amount != [] && !ParsesToZero(f.amount) && f.category != []
  }

  datatype Event =
    | Pad(key: string)
    | SelectCategory(id: string)
    | SetDate(date: string)
    | SetMemo(memo: string)
    | SetContinuous(on: bool)
    | Submit

  datatype Effect = Effect(form: Form, recorded: Option<Expense>, navigateTo: Option<string>)

  /** `handleSubmit`, with its delayed step applied at once: nothing unless the
      guard holds; otherwise record the expense, then in continuous mode clear
      the amount and memo and stay, else go to the dashboard. */
  function HandleSubmit(f: Form): (r: Effect)
    ensures r.recorded.Some? <==> CanSubmit(f)
    ensures !CanSubmit(f) ==> r == Effect(f, None, None)
    ensures CanSubmit(f) ==> r.recorded.value == Expense(Value(LeadingDigits(f.amount)), f.date, f.category, f.memo)
    ensures CanSubmit(f) && IsDigitString(f.amount) ==> r.recorded.value.amount == Value(f.amount)
    ensures CanSubmit(f) && f.continuous ==>
      && r.navigateTo == None
      && r.form.amount == [] && r.form.memo == []
      && r.form.category == f.category && r.form.date == f.date && r.form.continuous
    ensures CanSubmit(f) && !f.continuous ==> r.navigateTo == Some(Routing.DashboardPath)
  {
    if !CanSubmit(f) then Effect(f, None, None)
    else
      var rec := Expense(Value(LeadingDigits(f.amount)), f.date, f.category, f.memo);
      if f.continuous then Effect(f.(amount := [], memo := [], showSuccess := false), Some(rec), None)
      else Effect(f.(showSuccess := true), Some(rec), Some(Routing.DashboardPath))
  }

  /** `handleAmountChange`: keep only the digits of the typed text. No input of
      the form is bound to it, so it is not one of the form's actions. */
  function HandleAmountChange(f: Form, t: string): (r: Form)
    ensures r == f.(amount := r.amount)
    ensures IsDigitString(r.amount)
    ensures IsDigitString(t) ==> r.amount == t
  {
    f.(amount := StripNonDigits(t))
  }

  /** One action on the form. Only the pad's keys and the listed categories exist as buttons. */
  function Apply(f: Form, e: Event): (r: Effect)
    ensures r.recorded.Some? || r.navigateTo.Some? ==> e.Submit?
    ensures e.Pad? && e.key !in PadKeys ==> r.form == f
    ensures e.Pad? && e.key in PadKeys ==> r.form == f.(amount := PressKey(f.amount, e.key))
    ensures e.SelectCategory? && e.id !in CategoryIds ==> r.form == f
    ensures e.SelectCategory? && e.id in CategoryIds ==> r.form == f.(category := e.id)
    ensures !e.Submit? ==> r.form.showSuccess == f.showSuccess
  {
    match e
    case Pad(k) => Effect(if k in PadKeys then f.(amount := PressKey(f.amount, k)) else f, None, None)
    case SelectCategory(c) => Effect(if c in CategoryIds then f.(category := c) else f, None, None)
    case SetDate(d) => Effect(f.(date := d), None, None)
    case SetMemo(m) => Effect(f.(memo := m), None, None)
    case SetContinuous(b) => Effect(f.(continuous := b), None, None)
    case Submit => HandleSubmit(f)
  }

  /** Every action keeps the amount a digit string and the category a listed one. */
  lemma ApplyKeepsInv(f: Form, e: Event)
    requires Inv(f)
    ensures Inv(Apply(f, e).form)
  {
    if e.Pad? && e.key in PadKeys {
      PadKeepsDigits(f.amount, e.key);
    }
  }

  /** On a reachable form the guard reads: an amount whose value is not zero, and a category. */
  lemma SubmitGuardMeaning(f: Form)
    requires Inv(f)
    ensures CanSubmit(f) <==> f.amount != [] && Value(f.amount) != 0 && f.category != []
  {
    if f.amount != [] {
      ParsesToZeroIffValueZero(f.amount);
    }
  }

  /** A recorded expense is never of amount 0: the guard rules that out. */
  lemma SubmitRecordsPositive(f: Form)
    requires Inv(f) && CanSubmit(f)
    ensures HandleSubmit(f).recorded.value.amount > 0
  {
    ParsesToZeroIffValueZero(f.amount);
  }

  /** The filtering amount handler is idempotent: re-filtering the amount changes nothing. */
  lemma AmountChangeIdempotent(f: Form, t: string)
    ensures var g := HandleAmountChange(f, t);
      HandleAmountChange(g, g.amount) == g && IsDigitString(g.amount)
  {
    StripIdempotent(t);
  }
}

/**
  The income entry form: an amount typed on the number pad, a date, a client
  and a memo. Submitting records the income and returns to the dashboard; no
  category is involved.
 */
module IncomeAdd {
  import opened Wrappers
  import opened Text
  import opened Amount
  import Routing

  datatype Form = Form(amount: string, date: string, memo: string, client: string, showSuccess: bool)

  /** The quick-pick client names. */
  const RecentClients: seq<string> := ["株式会社A", "株式会社B", "個人事業主C"]

  function Initial(today: string): (f: Form)
    ensures Inv(f) && f.amount == [] && f.client == [] && f.date == today
  {
    Form("", today, "", "", false)
  }

  /** The states the form can reach: a digit-only amount. */
  predicate Inv(f: Form) {
    IsDigitString(f.amount)
  }

  /** The income a submit records. */
  datatype Income = Income(amount: nat, date: string, memo: string, client: string)

  /** The submit guard: an amount that does not parse to zero. */
  predicate CanSubmit(f: Form) {
    f.amount != [] && !ParsesToZero(f.amount)
  }

  datatype Event = Pad(key: string) | SetDate(date: string) | SetClient(name: string) | PickClient(name: string) | SetMemo(memo: string) | Submit

  datatype Effect = Effect(form: Form, recorded: Option<Income>, navigateTo: Option<string>)

  /** `handleSubmit`: nothing unless the guard holds; otherwise record and go to the dashboard. */
  function HandleSubmit(f: Form): (r: Effect)
    ensures r.recorded.Some? <==> CanSubmit(f)
    ensures !CanSubmit(f) ==> r == Effect(f, None, None)
    ensures CanSubmit(f) ==> r.navigateTo == Some(Routing.DashboardPath)
    ensures CanSubmit(f) ==> r.recorded.value == Income(Value(LeadingDigits(f.amount)), f.date, f.memo, f.client)
    ensures CanSubmit(f) && IsDigitString(f.amount) ==> r.recorded.value.amount == Value(f.amount)
  {
    if !CanSubmit(f) then Effect(f, None, None)
    else Effect(f.(showSuccess := true), Some(Income(Value(LeadingDigits(f.amount)), f.date, f.memo, f.client)), Some(Routing.DashboardPath))
  }

  /** One action on the form; the quick picks offer only the listed names, and only while no client is entered. */
  function Apply(f: Form, e: Event): (r: Effect)
    ensures r.recorded.Some? || r.navigateTo.Some? ==> e.Submit?
    ensures e.Pad? && e.key !in PadKeys ==> r.form == f
    ensures e.Pad? && e.key in PadKeys ==> r.form == f.(amount := PressKey(f.amount, e.key))
    ensures e.PickClient? && (f.client != [] || e.name !in RecentClients) ==> r.form == f
    ensures e.PickClient? && f.client == [] && e.name in RecentClients ==> r.form == f.(client := e.name)
    ensures !e.Submit? ==> r.form.showSuccess == f.showSuccess
  {
    match e
    case Pad(k) => Effect(if k in PadKeys then f.(amount := PressKey(f.amount, k)) else f, None, None)
    case SetDate(d) => Effect(f.(date := d), None, None)
    case SetClient(c) => Effect(f.(client := c), None, None)
    case PickClient(c) => Effect(if f.client == [] && c in RecentClients then f.(client := c) else f, None, None)
    case SetMemo(m) => Effect(f.(memo := m), None, None)
    case Submit => HandleSubmit(f)
  }

  /** Every action keeps the amount a digit string. */
  lemma ApplyKeepsInv(f: Form, e: Event)
    requires Inv(f)
    ensures Inv(Apply(f, e).form)
  {
    if e.Pad? && e.key in PadKeys {
      PadKeepsDigits(f.amount, e.key);
    }
  }

  /** A recorded income is never of amount 0. */
  lemma SubmitRecordsPositive(f: Form)
    requires Inv(f) && CanSubmit(f)
    ensures HandleSubmit(f).recorded.value.amount > 0
  {
    ParsesToZeroIffValueZero(f.amount);
  }

  /** Unlike the expense form, the guard asks for no category: any client, or none, will do. */
  lemma GuardIgnoresClient(f: Form, c: string)
    requires Inv(f)
    ensures CanSubmit(f.(client := c)) <==> CanSubmit(f)
    ensures CanSubmit(f) <==> f.amount != [] && Value(f.amount) != 0
  {
    if f.amount != [] {
      ParsesToZeroIffValueZero(f.amount);
    }
  }

  /** Typing digits and deleting them again on the pad restores the amount; the pad keeps the amount all digits. */
  lemma PadTypeThenDelete(f: Form, key: string)
    requires Inv(f) && key in PadKeys && |key| == 1
    ensures var g := Apply(Apply(f, Pad(key)).form, Pad(DeleteKey)).form;
      g == f && Inv(Apply(f, Pad(key)).form)
  {
    AppendThenDelete(f.amount, key);
    PadKeepsDigits(f.amount, key);
  }
}

=== FILE: onboarding.dfy ===
/**
  The three-step onboarding wizard: step 1 asks for the profile (nickname
  required), step 2 for the monthly goals (skippable), step 3 confirms and
  commits. Nothing is written to storage before the commit on step 3.
 */
module Onboarding {
  import opened Wrappers
  import opened Text
  import opened Amount
  import opened Storage
  import opened Profile
  import Routing

  /** The wizard's state: the current step (1 to 3) and the draft profile. */
  datatype Wizard = Wizard(step: int, data: UserData)

  /** The options of the business-type selector; the empty choice means "not selected". */
  const BusinessTypes: seq<string> := [
    "IT・Web制作", "コンサルティング", "小売・物販", "飲食",
    "教育・研修", "クリエイティブ", "不動産", "その他"
  ]

  /** The states the wizard can be in: a step in range, digit-only goal
      amounts, a selectable business type, and past step 1 only with a
      nickname that is not blank. */
  predicate Inv(w: Wizard) {
    && 1 <= w.step <= 3
    && IsDigitString(w.data.monthlyTarget)
    && IsDigitString(w.data.monthlyBudget)
    && (w.data.businessType == [] || w.data.businessType in BusinessTypes)
    && (w.step >= 2 ==> !IsBlank(w.data.nickname))
  }

  /** The wizard when it is first shown: step 1, every draft field empty. */
  function Initial(): (w: Wizard)
    ensures Inv(w)
    ensures w.step == 1 && Members(w.data) == ["", "", "", "", ""]
  {
    Wizard(1, Blank)
  }

  /** `canProceed`: step 1 needs a nickname that is not empty once trimmed; the other steps always may proceed. */
  predicate CanProceed(w: Wizard) {
    w.step == 1 ==> Trim(w.data.nickname) != []
  }

  /** The effect of one user action: the wizard afterwards, the storage, and the path navigated to, if any. */
  datatype Outcome = Outcome(wizard: Wizard, store: Store, navigateTo: Option<string>)

  /** The commit: the flag and the draft profile, written together. */
  function Commit(st: Store, data: UserData): (r: Store)
    ensures Routing.IsOnboarded(r)
    ensures GetItem(r, UserDataKey).Some? && Decode(GetItem(r, UserDataKey).value) == Some(data)
    ensures forall k :: k != OnboardedKey && k != UserDataKey ==> GetItem(r, k) == GetItem(st, k)
  {
    DecodeEncode(data);
    SetItem(SetItem(st, OnboardedKey, "true"), UserDataKey, Encode(data))
  }

  /** `handleNext`: below step 3 move one step on; on step 3 commit and go to the dashboard. */
  function HandleNext(w: Wizard, st: Store): (r: Outcome)
    ensures r.wizard.data == w.data
    ensures w.step < 3 ==> r.wizard.step == w.step + 1 && r.store == st && r.navigateTo == None
    ensures w.step >= 3 ==>
      && Routing.IsOnboarded(r.store)
      && GetItem(r.store, UserDataKey).Some?
      && Decode(GetItem(r.store, UserDataKey).value) == Some(w.data)
      && (forall k :: k != OnboardedKey && k != UserDataKey ==> GetItem(r.store, k) == GetItem(st, k))
      && r.navigateTo == Some(Routing.DashboardPath)
  {
    if w.step < 3 then Outcome(w.(step := w.step + 1), st, None)
    else Outcome(w, Commit(st, w.data), Some(Routing.DashboardPath))
  }

  /** `handleBack`: above step 1 move one step back; otherwise nothing. */
  function HandleBack(w: Wizard): (r: Wizard)
    ensures r.data == w.data
    ensures w.step > 1 ==> r.step == w.step - 1
    ensures w.step <= 1 ==> r == w
  {
    if w.step > 1 then w.(step := w.step - 1) else w
  }

  /** `handleSkip`: from step 2 jump to step 3; from any other step nothing. */
  function HandleSkip(w: Wizard): (r: Wizard)
    ensures r.data == w.data
    ensures w.step == 2 ==> r.step == 3
    ensures w.step != 2 ==> r == w
  {
    if w.step == 2 then w.(step := 3) else w
  }

  /** The user's actions. Field edits carry the input's raw text. */
  datatype Event =
    | Next
    | Back
    | Skip
    | EditNickname(text: string)
    | EditStartDate(text: string)
    | SelectBusinessType(choice: string)
    | EditMonthlyTarget(text: string)
    | EditMonthlyBudget(text: string)

  /** One user action on the wizard as displayed. The Next button is disabled
      while `CanProceed` fails; an input only receives edits on the step that
      shows it (profile fields on step 1, goals on step 2); the selector only
      offers its listed options; the goal inputs keep digits only. */
  function Apply(w: Wizard, st: Store, e: Event): (r: Outcome)
    ensures r.store != st || r.navigateTo.Some? ==> e.Next? && w.step >= 3 && CanProceed(w)
    ensures !(e.Next? || e.Back? || e.Skip?) ==> r.wizard.step == w.step
    ensures e.Next? && !CanProceed(w) ==> r == Outcome(w, st, None)
  {
    match e
    case Next => if CanProceed(w) then HandleNext(w, st) else Outcome(w, st, None)
    case Back => Outcome(HandleBack(w), st, None)
    case Skip => Outcome(HandleSkip(w), st, None)
    case EditNickname(t) =>
      Outcome(if w.step == 1 then w.(data := w.data.(nickname := t)) else w, st, None)
    case EditStartDate(t) =>
      Outcome(if w.step == 1 then w.(data := w.data.(businessStartDate := t)) else w, st, None)
    case SelectBusinessType(c) =>
      Outcome(if w.step == 1 && (c == [] || c in BusinessTypes) then w.(data := w.data.(businessType := c)) else w, st, None)
    case EditMonthlyTarget(t) =>
      Outcome(if w.step == 2 then w.(data := w.data.(monthlyTarget := StripNonDigits(t))) else w, st, None)
    case EditMonthlyBudget(t) =>
      Outcome(if w.step == 2 then w.(data := w.data.(monthlyBudget := StripNonDigits(t))) else w, st, None)
  }

  /** On step 1 the Next button is enabled exactly when the nickname has a non-white-space character. */
  lemma CanProceedIffNicknameNotBlank(w: Wizard)
    ensures w.step == 1 ==> (CanProceed(w) <==> !IsBlank(w.data.nickname))
    ensures w.step != 1 ==> CanProceed(w)
  {
    TrimEmptyIffBlank(w.data.nickname);
  }

  /** Every action keeps the wizard within its invariant: in particular the step stays within 1 to 3. */
  lemma ApplyKeepsInv(w: Wizard, st: Store, e: Event)
    requires Inv(w)
    ensures Inv(Apply(w, st, e).wizard)
  {
    match e
    case Next =>
      if CanProceed(w) && w.step == 1 {
        CanProceedIffNicknameNotBlank(w);
      }
    case EditMonthlyTarget(t) =>
    case EditMonthlyBudget(t) =>
    case _ =>
  }

  /** Back undoes Next below step 3, and Next undoes Back above step 1. */
  lemma BackAndNextAreInverse(w: Wizard, st: Store)
    requires Inv(w)
    ensures w.step < 3 ==> HandleBack(HandleNext(w, st).wizard) == w
    ensures w.step > 1 ==> HandleNext(HandleBack(w), st).wizard == w
  {
  }

  /** Skip is Next restricted to step 2: there it lands on step 3 like Next, elsewhere it does nothing. */
  lemma SkipOnlyFromGoals(w: Wizard, st: Store)
    ensures w.step == 2 ==> HandleSkip(w) == HandleNext(w, st).wizard && HandleSkip(w).step == 3
    ensures w.step != 2 ==> HandleSkip(w) == w
  {
  }

  /** The commit on step 3 is the only action that writes storage or navigates;
      every other action leaves storage as it was. */
  lemma OnlyCommitWrites(w: Wizard, st: Store, e: Event)
    requires Inv(w)
    ensures var o := Apply(w, st, e);
      if e.Next? && w.step == 3 then
        o.store == Commit(st, w.data) && o.navigateTo == Some(Routing.DashboardPath)
      else
        o.store == st && o.navigateTo == None
  {
  }

  /** Runs a sequence of actions; once an action navigates away the wizard is gone and the rest are ignored. */
  function Run(w: Wizard, st: Store, es: seq<Event>): Outcome
    decreases |es|
  {
    if es == [] then Outcome(w, st, None)
    else
      var o := Apply(w, st, es[0]);
      if o.navigateTo.Some? then o else Run(o.wizard, o.store, es[1..])
  }

  /** Whatever the user does from the initial wizard, storage ends either
      untouched or holding exactly one commit, of a profile with a nickname
      that is not blank and digit-only goal amounts. */
  lemma {:induction false} RunCommitsOnlyValidProfiles(w: Wizard, st: Store, es: seq<Event>)
    requires Inv(w)
    ensures var o := Run(w, st, es);
      || (o.store == st && o.navigateTo == None && Inv(o.wizard))
      || (exists d: UserData ::
            && o.store == Commit(st, d)
            && o.navigateTo == Some(Routing.DashboardPath)
            && !IsBlank(d.nickname)
            && IsDigitString(d.monthlyTarget)
            && IsDigitString(d.monthlyBudget))
    decreases |es|
  {
    if es != [] {
      var o := Apply(w, st, es[0]);
      ApplyKeepsInv(w, st, es[0]);
      OnlyCommitWrites(w, st, es[0]);
      if o.navigateTo.None? {
        RunCommitsOnlyValidProfiles(o.wizard, o.store, es[1..]);
      } else {
        assert o.store == Commit(st, w.data);
      }
    }
  }

  /** Step 1 with a blank nickname: Next does nothing. */
  lemma BlankNicknameBlocksNext(w: Wizard, st: Store)
    requires w.step == 1 && IsBlank(w.data.nickname)
    ensures Apply(w, st, Next) == Outcome(w, st, None)
  {
    CanProceedIffNicknameNotBlank(w);
  }

  /** Enter a nickname that is not blank, Next, Skip the goals, and start:
      the store holds the commit (flag set, see `Commit`) of a profile with
      that nickname and no goals, and the app goes to the dashboard. */
  lemma {:induction false} NicknameSkipCommit(st: Store, nickname: string)
    requires !IsBlank(nickname)
    ensures var o := Run(Initial(), st, [EditNickname(nickname), Next, Skip, Next]);
      && o.store == Commit(st, UserData(nickname, "", "", "", ""))
      && o.navigateTo == Some(Routing.DashboardPath)
  {
    var d := UserData(nickname, "", "", "", "");
    CanProceedIffNicknameNotBlank(Wizard(1, d));
    assert [EditNickname(nickname), Next, Skip, Next][1..] == [Next, Skip, Next];
    assert [Next, Skip, Next][1..] == [Skip, Next];
    assert [Skip, Next][1..] == [Next];
    assert Run(Wizard(3, d), st, [Next]) == Outcome(Wizard(3, d), Commit(st, d), Some(Routing.DashboardPath));
    assert Run(Wizard(2, d), st, [Skip, Next]) == Run(Wizard(3, d), st, [Next]);
    assert Run(Wizard(1, d), st, [Next, Skip, Next]) == Run(Wizard(2, d), st, [Skip, Next]);
  }

  /** The same walk-through with the nickname "田中". */
  lemma TanakaScenario(st: Store)
    ensures var o := Run(Initial(), st, [EditNickname("田中"), Next, Skip, Next]);
      && o.store == Commit(st, UserData("田中", "", "", "", ""))
      && o.navigateTo == Some(Routing.DashboardPath)
  {
    assert !IsWhiteSpace("田中"[0]);
    NicknameSkipCommit(st, "田中");
  }

  /** `formatCurrency` of the goal inputs shows nothing when the text has no digits. */
  lemma FormatWithoutDigitsIsEmpty(value: string)
    requires forall i :: 0 <= i < |value| ==> !IsDigit(value[i])
    ensures FormatTypedAmount(value) == ""
  {
    StripKeepsEveryDigit(value);
  }
}

=== FILE: profile.dfy ===
/**
  The user profile collected by onboarding and edited in the settings screen,
  and the text form it is stored under the `userData` key.

  The stored text has the shape `JSON.stringify` gives the profile object:
  `{"nickname":"…","businessStartDate":"…",…}` with the members in
  declaration order and `"` and `\` escaped inside values. `Decode` reads
  back exactly that shape.
 */
module Profile {
  import opened Wrappers

  /** The five profile fields; the two amounts hold digit strings, empty meaning unset. */
  datatype UserData = UserData(
    nickname: string,
    businessStartDate: string,
    businessType: string,
    monthlyTarget: string,
    monthlyBudget: string)

  /** The profile both screens start from before anything is entered or loaded. */
  const Blank := UserData("", "", "", "", "")

  const MemberNames: seq<string> := ["nickname", "businessStartDate", "businessType", "monthlyTarget", "monthlyBudget"]

  function Members(u: UserData): seq<string> {
    [u.nickname, u.businessStartDate, u.businessType, u.monthlyTarget, u.monthlyBudget]
  }

  function FromMembers(vs: seq<string>): UserData
    requires |vs| == 5
  {
    UserData(vs[0], vs[1], vs[2], vs[3], vs[4])
  }

  /** Escapes the two characters that would end or corrupt a quoted value. */
  function Escape(s: string): string {
    if s == [] then []
    else if s[0] == '"' || s[0] == '\\' then ['\\', s[0]] + Escape(s[1..])
    else [s[0]] + Escape(s[1..])
  }

  function Quote(s: string): string {
    "\"" + Escape(s) + "\""
  }

  /** Reads an escaped value up to its closing quote: the value and what follows the quote. */
  function ReadEscaped(s: string): Option<(string, string)> {
    if s == [] then None
    else if s[0] == '"' then Some(([], s[1..]))
    else if s[0] == '\\' then
      if |s| >= 2 && (s[1] == '"' || s[1] == '\\') then
        var r := ReadEscaped(s[2..]);
        if r.None? then None else Some(([s[1]] + r.value.0, r.value.1))
      else None
    else
      var r := ReadEscaped(s[1..]);
      if r.None? then None else Some(([s[0]] + r.value.0, r.value.1))
  }

  function ReadQuoted(s: string): Option<(string, string)> {
    if s != [] && s[0] == '"' then ReadEscaped(s[1..]) else None
  }

  /** What follows `lit` in `s`, when `s` starts with it. */
  function ReadLiteral(lit: string, s: string): (r: Option<string>)
    ensures r.Some? <==> |lit| <= |s| && s[..|lit|] == lit
    ensures r.Some? ==> lit + r.value == s
  {
    if |lit| <= |s| && s[..|lit|] == lit then
      assert lit + s[|lit|..] == s;
      Some(s[|lit|..])
    else None
  }

  function EncodeMembers(names: seq<string>, values: seq<string>): string
    requires |names| == |values|
  {
    if names == [] then []
    else
      Quote(names[0]) + ":" + Quote(values[0])
        + (if |names| == 1 then [] else "," + EncodeMembers(names[1..], values[1..]))
  }

  /** Reads the members `names`, in that order: their values and the text after the last one. */
  function DecodeMembers(names: seq<string>, s: string): Option<(seq<string>, string)> {
    if names == [] then Some(([], s))
    else
      var afterName := ReadLiteral(Quote(names[0]) + ":", s);
      if afterName.None? then None
      else
        var v := ReadQuoted(afterName.value);
        if v.None? then None
        else if |names| == 1 then Some(([v.value.0], v.value.1))
        else
          var afterComma := ReadLiteral(",", v.value.1);
          if afterComma.None? then None
          else
            var more := DecodeMembers(names[1..], afterComma.value);
            if more.None? then None else Some(([v.value.0] + more.value.0, more.value.1))
  }

  /** `JSON.stringify(userData)`. */
  function Encode(u: UserData): string {
    "{" + EncodeMembers(MemberNames, Members(u)) + "}"
  }

  /** `JSON.parse(text)` on the texts `Encode` produces; None when the text is not of that shape. */
  function Decode(text: string): Option<UserData> {
    var body := ReadLiteral("{", text);
    if body.None? then None
    else
      var ms := DecodeMembers(MemberNames, body.value);
      if ms.None? || ms.value.1 != "}" || |ms.value.0| != 5 then None
      else Some(FromMembers(ms.value.0))
  }

  lemma {:induction false} ReadEscapedRoundTrip(v: string, rest: string)
    ensures ReadEscaped(Escape(v) + "\"" + rest) == Some((v, rest))
  {
    var s := Escape(v) + "\"" + rest;
    if v == [] {
      assert s == "\"" + rest;
    } else {
      ReadEscapedRoundTrip(v[1..], rest);
      var tail := Escape(v[1..]) + "\"" + rest;
      if v[0] == '"' || v[0] == '\\' {
        assert s == ['\\', v[0]] + tail;
        assert s[2..] == tail;
      } else {
        assert s == [v[0]] + tail;
        assert s[1..] == tail;
      }
      assert [v[0]] + v[1..] == v;
    }
  }

  lemma ReadQuotedRoundTrip(v: string, rest: string)
    ensures ReadQuoted(Quote(v) + rest) == Some((v, rest))
  {
    assert Quote(v) + rest == "\"" + (Escape(v) + "\"" + rest);
    ReadEscapedRoundTrip(v, rest);
  }

  lemma {:induction false} DecodeMembersRoundTrip(names: seq<string>, values: seq<string>, rest: string)
    requires |names| == |values|
    ensures DecodeMembers(names, EncodeMembers(names, values) + rest) == Some((values, rest))
  {
    if names != [] {
      var key := Quote(names[0]) + ":";
      var after := Quote(values[0]) + (if |names| == 1 then [] else "," + EncodeMembers(names[1..], values[1..])) + rest;
      assert EncodeMembers(names, values) + rest == key + after;
      assert (key + after)[..|key|] == key;
      assert ReadLiteral(key, key + after) == Some(after);
      if |names| == 1 {
        assert after == Quote(values[0]) + rest;
        ReadQuotedRoundTrip(values[0], rest);
        assert [values[0]] == values;
        assert DecodeMembers(names, key + after) == Some(([values[0]], rest));
      } else {
        var tail := EncodeMembers(names[1..], values[1..]) + rest;
        assert after == Quote(values[0]) + ("," + tail);
        ReadQuotedRoundTrip(values[0], "," + tail);
        assert ("," + tail)[..1] == ",";
        assert ReadLiteral(",", "," + tail) == Some(tail);
        DecodeMembersRoundTrip(names[1..], values[1..], rest);
        assert [values[0]] + values[1..] == values;
        assert DecodeMembers(names, key + after) == Some(([values[0]] + values[1..], rest));
      }
    } else {
      assert EncodeMembers(names, values) + rest == rest;
    }
  }

  /** Reading back what was stored yields the same profile. */
  lemma DecodeEncode(u: UserData)
    ensures Decode(Encode(u)) == Some(u)
  {
    var text := Encode(u);
    var body := EncodeMembers(MemberNames, Members(u)) + "}";
    assert text == "{" + body;
    assert text[..1] == "{";
    assert ReadLiteral("{", text) == Some(body);
    DecodeMembersRoundTrip(MemberNames, Members(u), "}");
  }

  /** Whatever `ReadEscaped` accepts is an escaped value, its closing quote, and the rest. */
  lemma {:induction false} ReadEscapedSound(s: string)
    ensures ReadEscaped(s).Some? ==> Escape(ReadEscaped(s).value.0) + "\"" + ReadEscaped(s).value.1 == s
  {
    if s != [] && s[0] != '"' {
      if s[0] == '\\' {
        if |s| >= 2 && (s[1] == '"' || s[1] == '\\') {
          ReadEscapedSound(s[2..]);
          var r := ReadEscaped(s[2..]);
          if r.Some? {
            var v := [s[1]] + r.value.0;
            assert v[0] == s[1] && v[1..] == r.value.0;
            assert Escape(v) == ['\\', s[1]] + Escape(r.value.0);
            assert s == ['\\', s[1]] + s[2..];
          }
        }
      } else {
        ReadEscapedSound(s[1..]);
        var r := ReadEscaped(s[1..]);
        if r.Some? {
          var v := [s[0]] + r.value.0;
          assert v[0] == s[0] && v[1..] == r.value.0;
          assert Escape(v) == [s[0]] + Escape(r.value.0);
          assert s == [s[0]] + s[1..];
        }
      }
    }
  }

  /** Whatever `DecodeMembers` accepts is the encoding of the values it returns, followed by the rest. */
  lemma {:induction false} DecodeMembersSound(names: seq<string>, s: string)
    ensures var d := DecodeMembers(names, s);
      d.Some? ==> |d.value.0| == |names| && EncodeMembers(names, d.value.0) + d.value.1 == s
  {
    var d := DecodeMembers(names, s);
    if names != [] && d.Some? {
      var key := Quote(names[0]) + ":";
      var afterName := ReadLiteral(key, s).value;
      assert afterName[0] == '"';
      var v := ReadEscaped(afterName[1..]).value;
      ReadEscapedSound(afterName[1..]);
      assert afterName == Quote(v.0) + v.1 by {
        assert afterName == "\"" + afterName[1..];
      }
      if |names| == 1 {
        assert d.value == ([v.0], v.1);
        assert EncodeMembers(names, [v.0]) == key + Quote(v.0);
      } else {
        var afterComma := ReadLiteral(",", v.1).value;
        var more := DecodeMembers(names[1..], afterComma).value;
        DecodeMembersSound(names[1..], afterComma);
        assert d.value == ([v.0] + more.0, more.1);
        var vs := [v.0] + more.0;
        assert vs[0] == v.0 && vs[1..] == more.0;
        assert EncodeMembers(names, vs) == key + Quote(v.0) + "," + EncodeMembers(names[1..], more.0);
      }
    }
  }

  /** `Decode` accepts exactly the stored encodings: whatever it reads back is re-encoded to the same text. */
  lemma DecodeOnlyEncodings(text: string)
    ensures Decode(text).Some? ==> Encode(Decode(text).value) == text
  {
    if Decode(text).Some? {
      var body := ReadLiteral("{", text).value;
      var ms := DecodeMembers(MemberNames, body).value;
      DecodeMembersSound(MemberNames, body);
      var u := FromMembers(ms.0);
      assert Decode(text) == Some(u);
      MembersFromMembers(ms.0);
      var enc := EncodeMembers(MemberNames, ms.0);
      assert body == enc + "}";
      assert text == "{" + body;
    }
  }

  lemma MembersFromMembers(vs: seq<string>)
    requires |vs| == 5
    ensures Members(FromMembers(vs)) == vs
  {
  }

  /** Two different profiles are never stored under the same text. */
  lemma EncodeInjective(u: UserData, w: UserData)
    requires Encode(u) == Encode(w)
    ensures u == w
  {
    DecodeEncode(u);
    DecodeEncode(w);
  }
}

=== FILE: routing.dfy ===
/**
  The entry gate and route table of the application root.

  The root component reads the `isOnboarded` flag once, when it is mounted,
  and builds its route table from that snapshot; `Resolve` is that table as a
  total function from the snapshot and a requested path to what is shown.
 */
module Routing {
  import opened Wrappers
  import opened Storage

  datatype Page =
    | OnboardingPage
    | DashboardPage
    | IncomeAddPage
    | ExpenseAddPage
    | ReportPage
    | SettingsPage
    | SkillsPage
    | ErrorPage

  /** What a path resolves to: a page (inside the navigation shell or not), or a redirect. */
  datatype Outcome =
    | Render(page: Page, inShell: bool)
    | Redirect(to: string)

  const RootPath := "/"
  const OnboardingPath := "/onboarding"
  const DashboardPath := "/dashboard"
  const ErrorPath := "/error"

  /** The six paths rendered inside the shell, with their pages. */
  const ShellRoutes: map<string, Page> := map[
    DashboardPath := DashboardPage,
    "/income/add" := IncomeAddPage,
    "/expense/add" := ExpenseAddPage,
    "/report" := ReportPage,
    "/settings" := SettingsPage,
    "/skills" := SkillsPage
  ]

  /** Every path the table names explicitly; all others fall to the catch-all. */
  const KnownPaths: set<string> := {RootPath, OnboardingPath, ErrorPath} + ShellRoutes.Keys

  /** The gate: onboarded exactly when the stored value is the literal "true". */
  predicate IsOnboarded(st: Store) {
    GetItem(st, OnboardedKey) == Some("true")
  }

  /** The route table, given the flag read at mount time. */
  function Resolve(onboarded: bool, path: string): (r: Outcome)
    ensures path == RootPath ==> r == Redirect(if onboarded then DashboardPath else OnboardingPath)
    ensures path == OnboardingPath ==> r == Render(OnboardingPage, false)
    ensures path in ShellRoutes ==> r == Render(ShellRoutes[path], true)
    ensures path == ErrorPath ==> r == Render(ErrorPage, false)
    ensures path !in KnownPaths <==> r == Redirect(ErrorPath)
  {
    if path == RootPath then Redirect(if onboarded then DashboardPath else OnboardingPath)
    else if path == OnboardingPath then Render(OnboardingPage, false)
    else if path in ShellRoutes then Render(ShellRoutes[path], true)
    else if path == ErrorPath then Render(ErrorPage, false)
    else Redirect(ErrorPath)
  }

  /** Any stored value other than the exact text "true" (absent, "false", "TRUE", ...) reads as not onboarded. */
  lemma GateIsExactMatch(st: Store)
    ensures IsOnboarded(st) <==> OnboardedKey in st && st[OnboardedKey] == "true"
    ensures OnboardedKey in st && st[OnboardedKey] == "TRUE" ==> !IsOnboarded(st)
  {
  }

  /** The flag matters at the root path only: shell pages are rendered whatever it says. */
  lemma OnlyRootReadsFlag(path: string)
    requires path != RootPath
    ensures Resolve(true, path) == Resolve(false, path)
  {
  }

  /** A redirect always lands on a path that renders a page: navigation settles after one hop. */
  lemma RedirectsSettle(onboarded: bool, path: string)
    ensures Resolve(onboarded, path).Redirect? ==> Resolve(onboarded, Resolve(onboarded, path).to).Render?
  {
    assert DashboardPath in ShellRoutes;
  }

  /** Every path falls in exactly one class of the table, and the class fixes the kind of outcome. */
  lemma ResolutionIsAPartition(onboarded: bool, path: string)
    ensures var r := Resolve(onboarded, path);
      && (r.Render? && r.inShell <==> path in ShellRoutes)
      && (r.Render? && !r.inShell <==> path == OnboardingPath || path == ErrorPath)
      && (r.Redirect? <==> path == RootPath || path !in KnownPaths)
  {
  }
}

=== FILE: session.dfy ===
/**
  How the screens share storage across a session: what the onboarding commit
  means for the next start of the application and for the settings screen,
  and how logout and reset send the user back through onboarding.
 */
module Session {
  import opened Wrappers
  import opened Storage
  import opened Profile
  import Routing
  import Onboarding
  import Settings

  /** After the commit, a restart leads from the root path to the dashboard,
      and the settings screen shows exactly the committed profile. */
  lemma CommitOpensDashboard(st: Store, d: UserData)
    ensures var s := Onboarding.Commit(st, d);
      && Routing.Resolve(Routing.IsOnboarded(s), Routing.RootPath) == Routing.Redirect(Routing.DashboardPath)
      && Settings.Mount(s) == Some(Settings.Fresh.(userData := d))
  {
    var s := Onboarding.Commit(st, d);
    assert Encode(d)[0] == '{';
    assert GetItem(s, UserDataKey) == Some(Encode(d));
  }

  /** Logging out after onboarding: a restart leads to onboarding again, yet
      the settings screen still finds the committed profile. */
  lemma {:induction false} LogoutAfterCommit(st: Store, d: UserData, v: Settings.View)
    ensures var s := Settings.Apply(v, Onboarding.Commit(st, d), Settings.Logout).store;
      && Routing.Resolve(Routing.IsOnboarded(s), Routing.RootPath) == Routing.Redirect(Routing.OnboardingPath)
      && Settings.Mount(s) == Some(Settings.Fresh.(userData := d))
  {
    CommitOpensDashboard(st, d);
    Settings.LogoutClearsGateKeepsProfile(v, Onboarding.Commit(st, d));
  }

  /** Onboarding again after a logout replaces the stored profile with the new one. */
  lemma {:induction false} RecommitReplacesProfile(st: Store, d: UserData, e: UserData, v: Settings.View)
    ensures var s := Onboarding.Commit(Settings.Apply(v, Onboarding.Commit(st, d), Settings.Logout).store, e);
      && Routing.IsOnboarded(s)
      && Settings.Mount(s) == Some(Settings.Fresh.(userData := e))
  {
    CommitOpensDashboard(Settings.Apply(v, Onboarding.Commit(st, d), Settings.Logout).store, e);
  }
}

=== FILE: settings.dfy ===
/**
  The settings screen: shows the stored profile, edits one field at a time
  and saves the whole profile back, logs out, and resets all data.
 */
module Settings {
  import opened Wrappers
  import opened Text
  import opened Amount
  import opened Storage
  import opened Profile
  import Routing

  /** The editable items of the profile and goals sections. */
  datatype Field = Nickname | StartDate | BusinessType | MonthlyTarget | MonthlyBudget

  /** The two goal items use the currency editor. */
  predicate IsCurrency(f: Field) {
    f == MonthlyTarget || f == MonthlyBudget
  }

  function FieldValue(u: UserData, f: Field): string {
    match f
    case Nickname => u.nickname
    case StartDate => u.businessStartDate
    case BusinessType => u.businessType
    case MonthlyTarget => u.monthlyTarget
    case MonthlyBudget => u.monthlyBudget
  }

  function WithField(u: UserData, f: Field, value: string): (r: UserData)
    ensures FieldValue(r, f) == value
    ensures forall g :: g != f ==> FieldValue(r, g) == FieldValue(u, g)
  {
    match f
    case Nickname => u.(nickname := value)
    case StartDate => u.(businessStartDate := value)
    case BusinessType => u.(businessType := value)
    case MonthlyTarget => u.(monthlyTarget := value)
    case MonthlyBudget => u.(monthlyBudget := value)
  }

  /** The screen's state: the profile being shown, the field being edited
      (None for the empty `editingField`), and the reset confirmation dialog. */
  datatype View = View(userData: UserData, isEditing: bool, editingField: Option<Field>, showConfirm: bool)

  /** The screen as first rendered, before the stored profile is loaded. */
  const Fresh := View(Blank, false, None, false)

  /** Mounting the screen: the stored profile when the `userData` value is non-empty,
      the blank profile otherwise. None stands for stored text that does not
      parse, where the screen's loader fails. */
  function Mount(st: Store): (r: Option<View>)
    ensures GetItem(st, UserDataKey) == None || GetItem(st, UserDataKey) == Some("") ==> r == Some(Fresh)
    ensures forall u :: GetItem(st, UserDataKey) == Some(Encode(u)) ==> r == Some(Fresh.(userData := u))
    ensures r.Some? ==> !r.value.isEditing && !r.value.showConfirm
  {
    var saved := GetItem(st, UserDataKey);
    MountReadsEncoded(saved);
    if saved.None? || saved.value == [] then Some(Fresh)
    else
      var u := Decode(saved.value);
      if u.None? then None else Some(Fresh.(userData := u.value))
  }

  /** A stored encoding is never the empty text, and it parses back to its profile. */
  lemma MountReadsEncoded(saved: Option<string>)
    ensures forall u :: saved == Some(Encode(u)) ==> saved.value != [] && Decode(saved.value) == Some(u)
  {
    forall u | saved == Some(Encode(u))
      ensures saved.value != [] && Decode(saved.value) == Some(u)
    {
      assert Encode(u)[0] == '{';
      DecodeEncode(u);
    }
  }

  /** The user's actions on the screen. `Edit` carries the input's raw text. */
  datatype Event =
    | StartEdit(field: Field)
    | Edit(field: Field, text: string)
    | Save
    | Cancel
    | Logout
    | RequestReset
    | DismissReset
    | ConfirmReset

  /** The effect of one action: the screen afterwards, the storage, and the path navigated to, if any. */
  datatype Effect = Effect(view: View, store: Store, navigateTo: Option<string>)

  /** Leaves edit mode with no field selected. */
  function EndEdit(v: View): View {
    v.(isEditing := false, editingField := None)
  }

  /** One action. Every item is editable; an edit reaches a field only while its
      editor is open; the currency editor keeps the digits of what is typed.
      Save and Cancel exist only inside an open editor, and the reset's confirm
      and dismiss buttons only inside its dialog; elsewhere they do nothing.
      Save stores the whole profile; Cancel closes the editor without storing
      and without undoing the edit; Logout removes only the flag; the confirmed
      reset clears all storage. Both of the latter go to the onboarding page. */
  function Apply(v: View, st: Store, e: Event): (r: Effect)
    ensures r.navigateTo.Some? <==> e.Logout? || (e.ConfirmReset? && v.showConfirm)
    ensures r.navigateTo.Some? ==> r.navigateTo == Some(Routing.OnboardingPath)
    ensures r.store != st ==> (e.Save? && v.isEditing) || e.Logout? || (e.ConfirmReset? && v.showConfirm)
    ensures (e.Save? || e.Cancel?) && !v.isEditing ==> r == Effect(v, st, None)
  {
    match e
    case StartEdit(f) => Effect(v.(isEditing := true, editingField := Some(f)), st, None)
    case Edit(f, t) =>
      if v.isEditing && v.editingField == Some(f) then
        Effect(v.(userData := WithField(v.userData, f, if IsCurrency(f) then StripNonDigits(t) else t)), st, None)
      else Effect(v, st, None)
    case Save =>
      if v.isEditing then Effect(EndEdit(v), SetItem(st, UserDataKey, Encode(v.userData)), None)
      else Effect(v, st, None)
    case Cancel => if v.isEditing then Effect(EndEdit(v), st, None) else Effect(v, st, None)
    case Logout => Effect(v, RemoveItem(st, OnboardedKey), Some(Routing.OnboardingPath))
    case RequestReset => Effect(v.(showConfirm := true), st, None)
    case DismissReset => Effect(v.(showConfirm := false), st, None)
    case ConfirmReset =>
      if v.showConfirm then Effect(v, ClearAll(st), Some(Routing.OnboardingPath))
      else Effect(v, st, None)
  }

  /** The text an item shows: "未設定" when empty, the grouped amount with "円" for the goals, the value otherwise. */
  function DisplayValue(u: UserData, f: Field): (r: string)
    ensures FieldValue(u, f) == [] ==> r == "未設定"
    ensures !IsCurrency(f) && FieldValue(u, f) != [] ==> r == FieldValue(u, f)
    ensures IsCurrency(f) && FieldValue(u, f) != [] ==>
      && r == FormatStoredAmount(FieldValue(u, f)) + "円"
      && |r| > 1 && r[|r| - 1] == '円' && r != "未設定"
  {
    var value := FieldValue(u, f);
    if value == [] then "未設定"
    else if IsCurrency(f) then
      var shown := FormatStoredAmount(value) + "円";
      assert shown[|shown| - 1] == '円';
      assert "未設定"[2] == '定';
      shown
    else value
  }

  /** Only Save, Logout and the confirmed reset touch storage; Save writes the
      `userData` key alone, Logout removes the flag alone. */
  lemma OnlySaveLogoutResetWrite(v: View, st: Store, e: Event)
    ensures var r := Apply(v, st, e);
      && (!(e.Save? || e.Logout? || e.ConfirmReset?) ==> r.store == st && r.navigateTo == None)
      && (e.Save? || e.Logout? ==> forall k :: k != UserDataKey && k != OnboardedKey ==> GetItem(r.store, k) == GetItem(st, k))
      && (e.Save? ==> GetItem(r.store, OnboardedKey) == GetItem(st, OnboardedKey))
      && (e.Logout? ==> GetItem(r.store, UserDataKey) == GetItem(st, UserDataKey))
  {
  }

  /** Saving stores the shown profile so that the next mount shows it again, and closes the editor. */
  lemma SaveThenMount(v: View, st: Store)
    requires v.isEditing
    ensures var r := Apply(v, st, Save);
      && !r.view.isEditing && r.view.editingField == None
      && Mount(r.store) == Some(Fresh.(userData := v.userData))
  {
    var text := Encode(v.userData);
    assert text[0] == '{';
    DecodeEncode(v.userData);
  }

  /** Save with no editor open (its button is not shown) changes nothing. */
  lemma SaveNeedsEditor(v: View, st: Store)
    requires !v.isEditing
    ensures Apply(v, st, Save) == Effect(v, st, None)
  {
  }

  /** Cancel leaves storage as it was and closes the editor. */
  lemma CancelDoesNotWrite(v: View, st: Store)
    requires v.isEditing
    ensures var r := Apply(v, st, Cancel);
      r.store == st && !r.view.isEditing && r.view.editingField == None && r.view.userData == v.userData
  {
  }

  /** Logout removes the flag, so the gate reads "not onboarded" and the root
      path leads to onboarding; the stored profile is kept. */
  lemma LogoutClearsGateKeepsProfile(v: View, st: Store)
    ensures var r := Apply(v, st, Logout);
      && !Routing.IsOnboarded(r.store)
      && Routing.Resolve(Routing.IsOnboarded(r.store), Routing.RootPath) == Routing.Redirect(Routing.OnboardingPath)
      && GetItem(r.store, UserDataKey) == GetItem(st, UserDataKey)
      && Mount(r.store) == Mount(st)
      && r.navigateTo == Some(Routing.OnboardingPath)
  {
  }

  /** The confirmed reset empties storage: not onboarded, and the next mount shows the blank profile. */
  lemma ResetForgetsEverything(v: View, st: Store)
    requires v.showConfirm
    ensures var r := Apply(v, st, ConfirmReset);
      && r.store == map[]
      && !Routing.IsOnboarded(r.store)
      && Mount(r.store) == Some(Fresh)
      && r.navigateTo == Some(Routing.OnboardingPath)
  {
  }

  /** An edit in a currency editor stores only digits, whatever was typed. */
  lemma CurrencyEditKeepsDigits(v: View, st: Store, f: Field, t: string)
    requires IsCurrency(f) && v.isEditing && v.editingField == Some(f)
    ensures IsDigitString(FieldValue(Apply(v, st, Edit(f, t)).view.userData, f))
    ensures FieldValue(Apply(v, st, Edit(f, t)).view.userData, f) == StripNonDigits(t)
  {
  }

  /** The reset takes two steps: confirming without the dialog open does nothing,
      and dismissing the dialog leaves storage as it was. */
  lemma ResetNeedsConfirmation(v: View, st: Store)
    ensures !v.showConfirm ==> Apply(v, st, ConfirmReset) == Effect(v, st, None)
    ensures var d := Apply(Apply(v, st, RequestReset).view, st, DismissReset);
      d.store == st && !d.view.showConfirm && Apply(d.view, st, ConfirmReset).store == st
  {
  }

  /** A goal item shows the stored digits' value: stripping the "円" and the separators gives it back. */
  lemma GoalShowsStoredValue(u: UserData, f: Field)
    requires IsCurrency(f) && FieldValue(u, f) != [] && IsDigitString(FieldValue(u, f))
    ensures var r := DisplayValue(u, f);
      && StripNonDigits(r[..|r| - 1]) == CanonicalDigits(FieldValue(u, f))
      && Value(StripNonDigits(r[..|r| - 1])) == Value(FieldValue(u, f))
      && Grouped(r[..|r| - 1])
  {
    var r := DisplayValue(u, f);
    assert r[..|r| - 1] == FormatStoredAmount(FieldValue(u, f));
  }

  /** An empty goal formats to the empty string, and every empty item shows "未設定". */
  lemma EmptyItemsShowUnset(u: UserData, f: Field)
    requires FieldValue(u, f) == []
    ensures FormatStoredAmount(FieldValue(u, f)) == ""
    ensures DisplayValue(u, f) == "未設定"
  {
  }

  /** Cancel does not undo an edit: after editing one field, cancelling, and
      saving from another field's editor, the cancelled edit is stored too. */
  lemma {:induction false} CancelledEditIsSavedLater(v: View, st: Store, f: Field, g: Field, t: string)
    requires !IsCurrency(f)
    ensures
      var v1 := Apply(Apply(v, st, StartEdit(f)).view, st, Edit(f, t)).view;
      var v2 := Apply(v1, st, Cancel).view;
      var v3 := Apply(v2, st, StartEdit(g)).view;
      var r := Apply(v3, st, Save);
      && Apply(v1, st, Cancel).store == st
      && Mount(r.store).Some?
      && FieldValue(Mount(r.store).value.userData, f) == t
  {
    var v1 := Apply(Apply(v, st, StartEdit(f)).view, st, Edit(f, t)).view;
    var v3 := Apply(Apply(v1, st, Cancel).view, st, StartEdit(g)).view;
    assert v3.userData == v1.userData;
    SaveThenMount(v3, st);
  }
}

=== FILE: skills.dfy ===
/**
  The skills screen: a list of skills with add (validated, with defaults),
  update and delete by id, the category lookup used to label each skill, and
  the grouping of the list by category for display.
 */
module Skills {
  import opened Wrappers

  datatype Skill = Skill(id: string, name: string, level: int, category: string, years: int, description: string)

  datatype Category = Category(id: string, name: string)

  /** The fixed category table; the last entry, "other", is the fallback. */
  const Categories: seq<Category> := [
    Category("business", "ビジネス"),
    Category("tech", "テクノロジー"),
    Category("design", "デザイン"),
    Category("marketing", "マーケティング"),
    Category("sales", "営業"),
    Category("management", "マネジメント"),
    Category("creative", "クリエイティブ"),
    Category("other", "その他")
  ]

  // ---- adding ----

  /** The add form's draft (`newSkill`). */
  datatype Draft = Draft(name: string, level: int, category: string, years: int, description: string)

  /** The draft the form starts from and is reset to after an add. */
  const EmptyDraft := Draft("", 3, "", 0, "")

  /** `x || fallback` on a number: 0 is falsy. */
  function OrElse(x: int, fallback: int): (r: int)
    ensures x != 0 ==> r == x
    ensures x == 0 ==> r == fallback
  {
    if x != 0 then x else fallback
  }

  /** The add button is enabled, and the handler proceeds, only with a name and a category. */
  predicate CanAdd(d: Draft) {
    d.name != [] && d.category != []
  }

  /** The skill built from a draft: level defaults to 3, years to 0. */
  function NewSkill(d: Draft, id: string): Skill {
    Skill(id, d.name, OrElse(d.level, 3), d.category, OrElse(d.years, 0), d.description)
  }

  /** `[...skills, skill]` when the draft is complete, the list unchanged otherwise. */
  function AddSkill(skills: seq<Skill>, d: Draft, id: string): (r: seq<Skill>)
    ensures !CanAdd(d) ==> r == skills
    ensures CanAdd(d) ==> |r| == |skills| + 1 && r[..|skills|] == skills
    ensures CanAdd(d) ==> r[|skills|].id == id && r[|skills|].name == d.name && r[|skills|].category == d.category
    ensures CanAdd(d) ==> r[|skills|].level == (if d.level == 0 then 3 else d.level)
    ensures CanAdd(d) ==> r[|skills|].years == d.years && r[|skills|].description == d.description
  {
    if CanAdd(d) then skills + [NewSkill(d, id)] else skills
  }

  // ---- updating ----

  /** A partial skill (`Partial<Skill>`): the members present override. */
  datatype Patch = Patch(
    id: Option<string>, name: Option<string>, level: Option<int>,
    category: Option<string>, years: Option<int>, description: Option<string>)

  function Override<T>(current: T, p: Option<T>): T {
    if p.Some? then p.value else current
  }

  /** `{ ...skill, ...patch }`: the members the patch has win, the others are the skill's. */
  function Merge(s: Skill, p: Patch): (r: Skill)
    ensures p == Patch(None, None, None, None, None, None) ==> r == s
    ensures r.id == if p.id.Some? then p.id.value else s.id
    ensures p.name.Some? ==> r.name == p.name.value
    ensures p.name.None? ==> r.name == s.name
    ensures r.level == if p.level.Some? then p.level.value else s.level
    ensures r.category == if p.category.Some? then p.category.value else s.category
    ensures r.years == if p.years.Some? then p.years.value else s.years
    ensures r.description == if p.description.Some? then p.description.value else s.description
  {
    Skill(Override(s.id, p.id), Override(s.name, p.name), Override(s.level, p.level),
          Override(s.category, p.category), Override(s.years, p.years), Override(s.description, p.description))
  }

  /** The whole edited skill as a patch, which is what the edit form saves. */
  function WholeSkill(s: Skill): (p: Patch)
    ensures forall t :: Merge(t, p) == s
  {
    Patch(Some(s.id), Some(s.name), Some(s.level), Some(s.category), Some(s.years), Some(s.description))
  }

  /** `skills.map(s => s.id === id ? { ...s, ...patch } : s)`: same length, matching skills merged, the others untouched in place. */
  function UpdateSkill(skills: seq<Skill>, id: string, p: Patch): (r: seq<Skill>)
    ensures |r| == |skills|
    ensures forall i :: 0 <= i < |skills| && skills[i].id != id ==> r[i] == skills[i]
    ensures forall i :: 0 <= i < |skills| && skills[i].id == id ==> r[i] == Merge(skills[i], p)
  {
    if skills == [] then []
    else [if skills[0].id == id then Merge(skills[0], p) else skills[0]] + UpdateSkill(skills[1..], id, p)
  }

  // ---- deleting ----

  function CountId(skills: seq<Skill>, id: string): nat {
    if skills == [] then 0 else (if skills[0].id == id then 1 else 0) + CountId(skills[1..], id)
  }

  /** `skills.filter(s => s.id !== id)`. */
  function DeleteSkill(skills: seq<Skill>, id: string): (r: seq<Skill>)
    ensures |r| == |skills| - CountId(skills, id)
    ensures forall i :: 0 <= i < |r| ==> r[i].id != id
    ensures forall i :: 0 <= i < |skills| && skills[i].id != id ==> skills[i] in r
    ensures forall s :: s in r ==> s in skills
  {
    if skills == [] then []
    else if skills[0].id == id then DeleteSkill(skills[1..], id)
    else [skills[0]] + DeleteSkill(skills[1..], id)
  }

  /** Deleting keeps the survivors in their relative order: it works piecewise on a split list. */
  lemma {:induction false} DeleteConcat(a: seq<Skill>, b: seq<Skill>, id: string)
    ensures DeleteSkill(a + b, id) == DeleteSkill(a, id) + DeleteSkill(b, id)
  {
    if a == [] {
      assert a + b == b;
    } else {
      assert (a + b)[0] == a[0];
      assert (a + b)[1..] == a[1..] + b;
      DeleteConcat(a[1..], b, id);
    }
  }

  /** A list with no skill of that id is left as it is. */
  lemma {:induction false} DeleteAbsent(skills: seq<Skill>, id: string)
    requires forall i :: 0 <= i < |skills| ==> skills[i].id != id
    ensures DeleteSkill(skills, id) == skills
  {
    if skills != [] {
      DeleteAbsent(skills[1..], id);
    }
  }

  /** Deleting twice is deleting once. */
  lemma DeleteIdempotent(skills: seq<Skill>, id: string)
    ensures DeleteSkill(DeleteSkill(skills, id), id) == DeleteSkill(skills, id)
  {
    DeleteAbsent(DeleteSkill(skills, id), id);
  }

  /** An update that keeps the id is invisible once that id is deleted. */
  lemma {:induction false} DeleteAfterUpdate(skills: seq<Skill>, id: string, p: Patch)
    requires p.id == None || p.id == Some(id)
    ensures DeleteSkill(UpdateSkill(skills, id, p), id) == DeleteSkill(skills, id)
  {
    if skills != [] {
      DeleteAfterUpdate(skills[1..], id, p);
      assert UpdateSkill(skills, id, p)[1..] == UpdateSkill(skills[1..], id, p);
    }
  }

  /** Merging the same patch twice is merging it once. */
  lemma MergeIdempotent(s: Skill, p: Patch)
    ensures Merge(Merge(s, p), p) == Merge(s, p)
  {
  }

  /** Saving the same edited skill twice is saving it once. */
  lemma {:induction false} UpdateWholeIdempotent(skills: seq<Skill>, id: string, s: Skill)
    ensures UpdateSkill(UpdateSkill(skills, id, WholeSkill(s)), id, WholeSkill(s)) == UpdateSkill(skills, id, WholeSkill(s))
  {
    if skills != [] {
      UpdateWholeIdempotent(skills[1..], id, s);
      assert UpdateSkill(skills, id, WholeSkill(s))[1..] == UpdateSkill(skills[1..], id, WholeSkill(s));
    }
  }

  // ---- the screen's handlers ----

  /** The screen's state: the list, the add form (open or not, and its draft), and the skill being edited. */
  datatype Screen = Screen(skills: seq<Skill>, adding: bool, draft: Draft, editingId: Option<string>, editing: Option<Skill>)

  /** `handleAddSkill`: with a complete draft, append the new skill, reset the draft and close the form; otherwise nothing. */
  function HandleAddSkill(sc: Screen, id: string): (r: Screen)
    ensures !CanAdd(sc.draft) ==> r == sc
    ensures CanAdd(sc.draft) ==>
      && |r.skills| == |sc.skills| + 1 && r.skills[..|sc.skills|] == sc.skills
      && r.skills[|sc.skills|].id == id && r.skills[|sc.skills|].name == sc.draft.name
      && r.skills[|sc.skills|].category == sc.draft.category
      && r.draft == EmptyDraft && r.draft.name == [] && r.draft.category == [] && !r.adding
    ensures CanAdd(sc.draft) ==> r.skills == AddSkill(sc.skills, sc.draft, id)
    ensures r.editingId == sc.editingId && r.editing == sc.editing
  {
    if CanAdd(sc.draft) then sc.(skills := AddSkill(sc.skills, sc.draft, id), draft := EmptyDraft, adding := false)
    else sc
  }

  /** `startEditing`: open the editor on a copy of the skill; the list is untouched. */
  function StartEditing(sc: Screen, s: Skill): (r: Screen)
    ensures r.editingId == Some(s.id) && r.editing == Some(s)
    ensures r.skills == sc.skills && r.draft == sc.draft && r.adding == sc.adding
  {
    sc.(editingId := Some(s.id), editing := Some(s))
  }

  /** The edit form's save: when a copy is being edited, every skill with that id becomes the copy; the editor closes. */
  function HandleSaveEdit(sc: Screen, skillId: string): (r: Screen)
    ensures sc.editing.None? ==> r == sc
    ensures sc.editing.Some? ==> r.editing.None? && r.editingId.None? && |r.skills| == |sc.skills|
    ensures sc.editing.Some? ==> forall i :: 0 <= i < |sc.skills| ==>
      r.skills[i] == (if sc.skills[i].id == skillId then sc.editing.value else sc.skills[i])
    ensures r.draft == sc.draft && r.adding == sc.adding
  {
    if sc.editing.Some? then
      sc.(skills := UpdateSkill(sc.skills, skillId, WholeSkill(sc.editing.value)), editing := None, editingId := None)
    else sc
  }

  /** Opening the editor on a skill and saving without changes leaves the list
      as it was, when no other skill shares that id. */
  lemma SaveUnchangedEdit(sc: Screen, j: nat)
    requires j < |sc.skills|
    requires forall i :: 0 <= i < |sc.skills| && sc.skills[i].id == sc.skills[j].id ==> i == j
    ensures HandleSaveEdit(StartEditing(sc, sc.skills[j]), sc.skills[j].id).skills == sc.skills
  {
  }

  /** `handleDeleteSkill`: the skills with the id are gone, the others stay; nothing else on the screen changes. */
  function HandleDeleteSkill(sc: Screen, id: string): (r: Screen)
    ensures |r.skills| == |sc.skills| - CountId(sc.skills, id)
    ensures forall i :: 0 <= i < |r.skills| ==> r.skills[i].id != id
    ensures forall i :: 0 <= i < |sc.skills| && sc.skills[i].id != id ==> sc.skills[i] in r.skills
    ensures r.skills == DeleteSkill(sc.skills, id)
    ensures r.draft == sc.draft && r.adding == sc.adding && r.editingId == sc.editingId && r.editing == sc.editing
  {
    sc.(skills := DeleteSkill(sc.skills, id))
  }

  /** Adding then deleting the new skill's id, when no skill had that id, restores the list. */
  lemma AddThenDelete(skills: seq<Skill>, d: Draft, id: string)
    requires CanAdd(d)
    requires forall i :: 0 <= i < |skills| ==> skills[i].id != id
    ensures DeleteSkill(AddSkill(skills, d, id), id) == skills
  {
    DeleteConcat(skills, [NewSkill(d, id)], id);
    DeleteAbsent(skills, id);
  }

  // ---- the category buttons ----

  /** The ids the category buttons of the add form offer. */
  predicate IsListedCategory(id: string) {
    exists j :: 0 <= j < |Categories| && Categories[j].id == id
  }

  /** A category button of the add form: it sets the draft's category to its id. */
  function SelectDraftCategory(sc: Screen, id: string): (r: Screen)
    ensures IsListedCategory(id) ==> r == sc.(draft := sc.draft.(category := id))
    ensures !IsListedCategory(id) ==> r == sc
  {
    if IsListedCategory(id) then sc.(draft := sc.draft.(category := id)) else sc
  }

  /** The screens the handlers can reach: every category in play is a listed one. */
  predicate ScreenInv(sc: Screen) {
    && (sc.draft.category == [] || IsListedCategory(sc.draft.category))
    && (forall i :: 0 <= i < |sc.skills| ==> IsListedCategory(sc.skills[i].category))
    && (sc.editing.Some? ==> IsListedCategory(sc.editing.value.category))
  }

  /** Every handler keeps the categories listed ones, starting from the empty screen. */
  lemma HandlersKeepScreenInv(sc: Screen, id: string, c: string, j: nat)
    requires ScreenInv(sc)
    ensures ScreenInv(Screen([], false, EmptyDraft, None, None))
    ensures ScreenInv(HandleAddSkill(sc, id))
    ensures ScreenInv(SelectDraftCategory(sc, c))
    ensures ScreenInv(HandleSaveEdit(sc, id))
    ensures ScreenInv(HandleDeleteSkill(sc, id))
    ensures j < |sc.skills| ==> ScreenInv(StartEditing(sc, sc.skills[j]))
  {
    var d := HandleDeleteSkill(sc, id);
    forall i | 0 <= i < |d.skills|
      ensures IsListedCategory(d.skills[i].category)
    {
      assert d.skills[i] in sc.skills;
    }
  }

  // ---- category lookup ----

  /** `categories.find(c => c.id === id)`: the first match. */
  function FindCategory(cats: seq<Category>, id: string): (r: Option<nat>)
    ensures r.Some? ==> r.value < |cats| && cats[r.value].id == id
    ensures r.Some? ==> forall j :: 0 <= j < r.value ==> cats[j].id != id
    ensures r.None? ==> forall j :: 0 <= j < |cats| ==> cats[j].id != id
  {
    if cats == [] then None
    else if cats[0].id == id then Some(0)
    else
      var r := FindCategory(cats[1..], id);
      if r.None? then None else Some(r.value + 1)
  }

  /** `getCategoryInfo`: the category with that id, or the last one ("other") when none has it. */
  function CategoryInfo(id: string): (r: Category)
    ensures r in Categories
    ensures (exists j :: 0 <= j < |Categories| && Categories[j].id == id) ==> r.id == id
    ensures (forall j :: 0 <= j < |Categories| ==> Categories[j].id != id) ==> r == Category("other", "その他")
  {
    var k := FindCategory(Categories, id);
    if k.Some? then Categories[k.value] else Categories[|Categories| - 1]
  }

  /** On a reachable screen the fallback is never used: every skill is labelled with its own category. */
  lemma ListedSkillsHaveOwnCategory(sc: Screen, i: nat)
    requires ScreenInv(sc) && i < |sc.skills|
    ensures CategoryInfo(sc.skills[i].category).id == sc.skills[i].category
  {
  }

  // ---- grouping ----

  /** The skills of one category, in list order. */
  function InCategory(skills: seq<Skill>, k: string): (r: seq<Skill>)
    ensures forall i :: 0 <= i < |r| ==> r[i].category == k
    ensures forall i :: 0 <= i < |skills| && skills[i].category == k ==> skills[i] in r
  {
    if skills == [] then []
    else
      var last := skills[|skills| - 1];
      InCategory(skills[..|skills| - 1], k) + (if last.category == k then [last] else [])
  }

  /** The categories that occur in the list. */
  function CategoriesOf(skills: seq<Skill>): set<string> {
    set i | 0 <= i < |skills| :: skills[i].category
  }

  lemma InCategoryAppend(a: seq<Skill>, s: Skill, k: string)
    ensures InCategory(a + [s], k) == InCategory(a, k) + (if s.category == k then [s] else [])
  {
    assert (a + [s])[..|a|] == a;
  }

  lemma CategoriesOfAppend(a: seq<Skill>, s: Skill)
    ensures CategoriesOf(a + [s]) == CategoriesOf(a) + {s.category}
  {
    var b := a + [s];
    assert b[|a|] == s;
    forall k | k in CategoriesOf(b)
      ensures k in CategoriesOf(a) + {s.category}
    {
      var i :| 0 <= i < |b| && b[i].category == k;
      if i < |a| {
        assert a[i] == b[i];
      }
    }
    forall k | k in CategoriesOf(a)
      ensures k in CategoriesOf(b)
    {
      var i :| 0 <= i < |a| && a[i].category == k;
      assert b[i] == a[i];
    }
  }

  /** `groupedSkills`: the reduce that buckets the list by category. One group
      per category present, each holding exactly that category's skills in list order. */
  method GroupByCategory(skills: seq<Skill>) returns (groups: map<string, seq<Skill>>)
    ensures groups.Keys == CategoriesOf(skills)
    ensures forall k :: k in groups ==> groups[k] == InCategory(skills, k)
  {
    groups := map[];
    var i := 0;
    while i < |skills|
      invariant 0 <= i <= |skills|
      invariant groups.Keys == CategoriesOf(skills[..i])
      invariant forall k :: k in groups ==> groups[k] == InCategory(skills[..i], k)
    {
      var s := skills[i];
      var prefix := skills[..i];
      assert skills[..i + 1] == prefix + [s];
      CategoriesOfAppend(prefix, s);
      if s.category !in groups {
        NoneOutsideCategories(prefix, s.category);
        groups := groups[s.category := []];
      }
      groups := groups[s.category := groups[s.category] + [s]];
      forall k | k in groups
        ensures groups[k] == InCategory(prefix + [s], k)
      {
        InCategoryAppend(prefix, s, k);
      }
      i := i + 1;
    }
    assert skills[..i] == skills;
  }

  lemma {:induction false} NoneOutsideCategories(skills: seq<Skill>, k: string)
    requires k !in CategoriesOf(skills)
    ensures InCategory(skills, k) == []
  {
    if skills != [] {
      var prefix := skills[..|skills| - 1];
      assert skills == prefix + [skills[|skills| - 1]];
      CategoriesOfAppend(prefix, skills[|skills| - 1]);
      NoneOutsideCategories(prefix, k);
    }
  }

  /** Each skill is in exactly one group: the one of its own category. */
  lemma ExactlyOneGroup(skills: seq<Skill>, groups: map<string, seq<Skill>>, i: nat, k: string)
    requires groups.Keys == CategoriesOf(skills)
    requires forall c :: c in groups ==> groups[c] == InCategory(skills, c)
    requires i < |skills|
    ensures skills[i].category in groups && skills[i] in groups[skills[i].category]
    ensures k in groups && skills[i] in groups[k] ==> k == skills[i].category
  {
    if k in groups && skills[i] in groups[k] {
      var j :| 0 <= j < |groups[k]| && groups[k][j] == skills[i];
    }
  }
}

=== FILE: storage.dfy ===
/** Option, as the storage reads and the decoders return it. */
module Wrappers {
  datatype Option<+T> = None | Some(value: T)
}

/**
  The browser's `localStorage` as the application uses it: a map from string
  keys to string values, with get, set, remove and clear.
 */
module Storage {
  import opened Wrappers

  type Store = map<string, string>

  /** The keys the application writes. */
  const OnboardedKey := "isOnboarded"
  const UserDataKey := "userData"

  /** `localStorage.getItem(key)`: the stored value, or null when the key is absent. */
  function GetItem(st: Store, key: string): (r: Option<string>)
    ensures r.Some? <==> key in st
    ensures r.Some? ==> r.value == st[key]
  {
    if key in st then Some(st[key]) else None
  }

  /** `localStorage.setItem(key, value)`: reading `key` back yields `value`; every other key is untouched. */
  function SetItem(st: Store, key: string, value: string): (r: Store)
    ensures GetItem(r, key) == Some(value)
    ensures forall k :: k != key ==> GetItem(r, k) == GetItem(st, k)
  {
    st[key := value]
  }

  /** `localStorage.removeItem(key)`: `key` reads as absent; every other key is untouched. */
  function RemoveItem(st: Store, key: string): (r: Store)
    ensures GetItem(r, key) == None
    ensures forall k :: k != key ==> GetItem(r, k) == GetItem(st, k)
  {
    st - {key}
  }

  /** `localStorage.clear()`: every key reads as absent. */
  function ClearAll(st: Store): (r: Store)
    ensures forall k :: GetItem(r, k) == None
  {
    map[]
  }
}

=== FILE: text.dfy ===
/**
  Character-level helpers shared by every form of the application: the
  `/[^0-9]/g` digit filter applied to currency inputs, and the whitespace
  trim applied to the onboarding nickname.
 */
module Text {

  /** The regular-expression class `[0-9]`: ASCII digits only (full-width digits are not digits here). */
  predicate IsDigit(c: char) {
    '0' <= c <= '9'
  }

  predicate IsDigitString(s: string) {
    forall i :: 0 <= i < |s| ==> IsDigit(s[i])
  }

  /** `s.replace(/[^0-9]/g, "")`: the digits of `s`, in order. */
  function StripNonDigits(s: string): (r: string)
    ensures IsDigitString(r)
    ensures |r| <= |s|
    ensures IsDigitString(s) ==> r == s
  {
    if s == [] then []
    else if IsDigit(s[0]) then [s[0]] + StripNonDigits(s[1..])
    else StripNonDigits(s[1..])
  }

  /** The filter is a homomorphism on concatenation: what it keeps from a
      string is what it keeps from each part, in the same order. */
  lemma {:induction false} StripConcat(a: string, b: string)
    ensures StripNonDigits(a + b) == StripNonDigits(a) + StripNonDigits(b)
  {
    if a == [] {
      assert a + b == b;
    } else {
      assert (a + b)[0] == a[0];
      assert (a + b)[1..] == a[1..] + b;
      StripConcat(a[1..], b);
    }
  }

  /** Re-applying the filter to its own output changes nothing. */
  lemma StripIdempotent(s: string)
    ensures StripNonDigits(StripNonDigits(s)) == StripNonDigits(s)
  {
  }

  /** The filter leaves a string unchanged exactly when it is made of digits. */
  lemma StripFixedPoint(s: string)
    ensures StripNonDigits(s) == s <==> IsDigitString(s)
  {
  }

  /** The filter keeps every digit: its output is as long as the number of digits in the input. */
  function CountDigits(s: string): nat {
    if s == [] then 0 else (if IsDigit(s[0]) then 1 else 0) + CountDigits(s[1..])
  }

  lemma {:induction false} StripKeepsEveryDigit(s: string)
    ensures |StripNonDigits(s)| == CountDigits(s)
    ensures StripNonDigits(s) == [] <==> forall i :: 0 <= i < |s| ==> !IsDigit(s[i])
  {
    if s != [] {
      StripKeepsEveryDigit(s[1..]);
      if !IsDigit(s[0]) {
        forall i | 1 <= i < |s|
          ensures s[i] == s[1..][i - 1]
        {
        }
      }
    }
  }

  /** The same filter written as the left-to-right scan a regex replace performs. */
  method StripNonDigitsScan(s: string) returns (r: string)
    ensures r == StripNonDigits(s)
  {
    r := [];
    var i := 0;
    while i < |s|
      invariant 0 <= i <= |s|
      invariant r == StripNonDigits(s[..i])
    {
      assert s[..i + 1] == s[..i] + [s[i]];
      StripConcat(s[..i], [s[i]]);
      if IsDigit(s[i]) {
        r := r + [s[i]];
      }
      i := i + 1;
    }
    assert s[..i] == s;
  }

  /** ECMAScript WhiteSpace and LineTerminator code points: what `String.prototype.trim` removes. */
  predicate IsWhiteSpace(c: char) {
    || c == '\t' || c == '\n' || c == '\U{000B}' || c == '\U{000C}' || c == '\r'
    || c == ' ' || c == '\U{00A0}' || c == '\U{1680}'
    || ('\U{2000}' <= c <= '\U{200A}')
    || c == '\U{2028}' || c == '\U{2029}' || c == '\U{202F}' || c == '\U{205F}'
    || c == '\U{3000}' || c == '\U{FEFF}'
  }

  predicate IsBlank(s: string) {
    forall i :: 0 <= i < |s| ==> IsWhiteSpace(s[i])
  }

  /** Drops leading white space: the result is a suffix of `s` that does not start with white space. */
  function TrimStart(s: string): (r: string)
    ensures |r| <= |s| && r == s[|s| - |r|..]
    ensures IsBlank(s[..|s| - |r|])
    ensures r != [] ==> !IsWhiteSpace(r[0])
  {
    if s != [] && IsWhiteSpace(s[0]) then
      var r := TrimStart(s[1..]);
      assert s[..|s| - |r|] == [s[0]] + s[1..][..|s[1..]| - |r|];
      r
    else s
  }

  /** Drops trailing white space: the result is a prefix of `s` that does not end with white space. */
  function TrimEnd(s: string): (r: string)
    ensures |r| <= |s| && r == s[..|r|]
    ensures IsBlank(s[|r|..])
    ensures r != [] ==> !IsWhiteSpace(r[|r| - 1])
  {
    if s != [] && IsWhiteSpace(s[|s| - 1]) then
      var r := TrimEnd(s[..|s| - 1]);
      assert s[|r|..] == s[..|s| - 1][|r|..] + [s[|s| - 1]];
      r
    else s
  }

  /** `s.trim()`: a contiguous part of `s` cut out between white-space ends,
      and neither starting nor ending with white space. */
  function Trim(s: string): (r: string)
    ensures |r| <= |s|
    ensures exists k :: 0 <= k <= |s| - |r| && s[k..k + |r|] == r && IsBlank(s[..k]) && IsBlank(s[k + |r|..])
    ensures r != [] ==> !IsWhiteSpace(r[0]) && !IsWhiteSpace(r[|r| - 1])
  {
    var t := TrimStart(s);
    var r := TrimEnd(t);
    var k := |s| - |t|;
    assert s[k..k + |r|] == r;
    assert s[k + |r|..] == t[|r|..];
    r
  }

  /** `s.trim() !== ""` holds exactly when `s` has a character that is not white space. */
  lemma TrimEmptyIffBlank(s: string)
    ensures Trim(s) == [] <==> IsBlank(s)
  {
    var t := TrimStart(s);
    var k := |s| - |t|;
    if Trim(s) == [] {
      assert IsBlank(t[0..]);
      assert t == [];
      forall i | 0 <= i < |s|
        ensures IsWhiteSpace(s[i])
      {
        assert s[i] == s[..k][i];
      }
    }
  }
}
